=== FILE: README.md ===
# RedisTester core, modelled in Dafny

RedisTester is a load tester for a Redis deployment: a sentinel-monitored master with replicas, or a cluster. Underneath its HTTP controllers and worker threads sits a small sequential core, and this project models that core:

- **Configuration validators.** Three checks decide whether a configuration may be used: the sentinel helper's, the cluster helper's and the older static `SentinelHelper`'s (module `Config`).
- **Connection helper.** It builds a connection string and keeps a state record: an optional cached multiplexer plus the remembered configuration. The rules are:
  - lazy get;
  - unconditional reconnect;
  - a fresh per-client connect;
  - flush and master shutdown over the connected, non-replica servers (module `Connection`).
- **Static shared connection.** It is opened once and then cached for the whole process (module `SharedConnection`).
- **`TestHelper` workload.** It has four timed phases over the thread's key space. An operation that loses the connection is skipped: the loop reconnects and never retries it. Results are merged into a shared aggregate and then averaged over the number of clients (modules `Keys`, `Workload`, `Results`).
- **Master-fail delay.** Its length is computed in 32-bit arithmetic (modules `CsArith`, `MasterFail`).
- **`SentinelHelper` string and list tests.** They fill one `TestParams` record of a `TestResults` (module `SentinelWorkload`).

How the model represents things:

- A C# `null` is `None`.
- A thrown exception is a `Failure` value of `Result`. An operation that changes the helper and then throws returns both the new state and the failure.
- `ConnectionMultiplexer.Connect` is not modelled. In its place, each helper numbers the handles it opens, so a handle "is new" exactly when its number was never issued before. Each handle also records the connection string it was opened with.
- The server list behind a handle is an input.
- Inputs also cover everything else the code does not compute: stopwatch readings, thread ids, random draws, and which store operations lose the connection (a set of failing iterations per phase), which keys vanish between the write and read phases of the `SentinelHelper` string test, and the list the pops of its list test find.
- The store is a `map<string, int>` and the Redis list is a `seq<int>`.

Two consequences of the code that are easy to misread:

- The master-fail delay is `rnd.Next() % (testload * 2) + 1`. For a positive load it lies in `[1, 2·load]`; a negative load sleeps at least 1 ms and at most `2·|load|`; a load of 0 or `int.MinValue` throws a division by zero (`MasterFail.SleepMilliseconds`).
- The aggregate sums the workers' timings and then divides by the client count, so workers that all report the same timings average back to exactly those timings (`Results.AverageOfEqualWorkers`).

## Model

| member | source | states |
|---|---|---|
| Config.AnyBadAddress | Helpers/SentinelConfigurationHelper.cs:32 | `Any(address => IsNullOrEmpty(IP) \|\| Port <= 0)` is true exactly when some address in the list has a null or empty IP or a non-positive port |
| Config.SentinelIsConfigValid | Helpers/SentinelConfigurationHelper.cs:23-58 | false for a null configuration, for a null or empty redis or sentinel list, for any bad address in either list, for a null or empty password, for fewer than 1 parallel client and for a timeout under 1000; true exactly when the record meets every one of those conditions |
| Config.ClusterIsConfigValid | Helpers/ClusterConfigurationHelper.cs:19-48 | false for a null configuration, a null or empty redis list, a bad redis address, a null or empty password, fewer than 1 client or a timeout under 1000; true exactly when the record meets all of them, so a valid record has a non-zero client count |
| Config.LegacyIsConfigValid | Helpers/SentinelHelper.cs:12-37 | false for a null configuration, a null or empty redis or sentinel list, a bad address in either list or a null or empty password; true exactly when those hold, with no count or timeout check |
| Config.SentinelValidImpliesLegacyValid | Helpers/SentinelConfigurationHelper.cs:25-45 | a record the sentinel helper accepts is accepted by the older validator on the same addresses and password |
| Config.LegacyValidWithBoundsImpliesSentinelValid | Helpers/SentinelConfigurationHelper.cs:47-55 | the converse holds once the client count is at least 1 and the timeout at least 1000: those two checks are the whole difference |
| Config.SentinelValidIffClusterValidAndMonitorsOk | Helpers/ClusterConfigurationHelper.cs:21-47 | the sentinel check is the cluster check on the shared fields plus a valid sentinel list; the cluster check never reads sentinel addresses |
| Text.IntToStringRoundTrip | Helpers/TestHelper.cs:26 | the decimal rendering used for key suffixes and ports parses back to the number it came from |
| Text.IntToStringInjective | Helpers/TestHelper.cs:26 | distinct numbers render as distinct strings |
| Keys.KeyInjective | Helpers/TestHelper.cs:22-32 | under one prefix, `prefix + i.ToString()` names a different key for every `i` |
| Keys.KeyInRange | Helpers/TestHelper.cs:22 | key `prefix + i` belongs to the loop's key space exactly when `1 <= i <= n` |
| Keys.KeyRangeSize | Helpers/TestHelper.cs:22 | a loop over `1..n` addresses exactly `n` distinct keys, none when `n < 1` |
| Keys.ClearedKeySpace | Helpers/TestHelper.cs:106-116 | a store that agrees with the old one outside the key space and holds none of its keys is the old store minus that key space |
| Connection.ConnectionString | Helpers/ConfiguratinHelper.cs:16-35 | empty for a null configuration; a null address list throws a null reference; otherwise it succeeds |
| Connection.SplitAddressSegments | Helpers/ConfiguratinHelper.cs:25-28 | when no IP holds a comma, the address part read back at its commas yields one `IP:Port` field per address, in list order |
| Text.SplitTerminated | Helpers/ConfiguratinHelper.cs:25-28 | fields written each followed by a comma, none containing a comma, split back into exactly those fields, in order, followed by the pieces of whatever comes after |
| Connection.SplitOptionSegments | Helpers/ConfiguratinHelper.cs:30-32 | read back at its commas, the part after the addresses is exactly `password=P`, `allowAdmin = true` and `connectTimeout=T`, when the password holds no comma |
| Connection.ConnectionStringFields | Helpers/ConfiguratinHelper.cs:23-34 | when no IP and not the password holds a comma, the whole string read back at its commas is the address fields in order, then `password=P`, `allowAdmin = true` and `connectTimeout=T` |
| Connection.GetRDBConnection | Helpers/ConfiguratinHelper.cs:42-57 | with a cached handle, returns it and changes nothing; otherwise opens a never-issued handle from the current connection string, caches it and returns it; when building the string throws, nothing changes |
| Connection.GetRDBConnectionIdempotent | Helpers/ConfiguratinHelper.cs:44-47 | once a handle is obtained, asking again returns the same handle with no further change |
| Connection.GetRDBConnectionForClient | Helpers/ConfiguratinHelper.cs:65-75 | returns a never-issued handle, different from the cached one, opened with the chosen configuration; never touches the cached handle; replaces the configuration only for a non-null argument |
| Connection.Reconnect | Helpers/ConfiguratinHelper.cs:77-90 | always replaces the cached handle with a never-issued one opened from the chosen configuration; replaces the configuration only for a non-null argument, and keeps that replacement even when opening throws |
| Connection.ConnectedMasters | Helpers/ConfiguratinHelper.cs:106-114 | an endpoint is selected exactly when it is in the list, connected and not a replica |
| Connection.FlushDatabase | Helpers/ConfiguratinHelper.cs:97-117 | returns false and flushes nothing without a cached handle; otherwise returns true and flushes exactly the connected masters |
| Connection.SimulateMasterFail | Helpers/ConfiguratinHelper.cs:124-142 | shuts nothing down without a cached handle; otherwise shuts down exactly the connected masters |
| Connection.HelperIsConfigValid | Helpers/ConfiguratinHelper.cs:144 | the abstract check dispatches to the subclass: a sentinel helper runs the sentinel validator on its own (hiding) property, a cluster helper the cluster validator on the base property |
| Connection.CommaInPasswordSplitsIt | Helpers/ConfiguratinHelper.cs:30-32 | as written, a password `left,right` ends the password field at its comma: the string reads back as the address fields, then `password=left`, `right`, the admin switch and the timeout, one field more than intended |
| Connection.ValidatorAcceptsCommaInPassword | Helpers/ClusterConfigurationHelper.cs:32-35 | the cluster validator, which only rejects a null or empty password, accepts the password `a,b`, and that configuration's string reads back as five fields instead of four |
| Connection.FixedIffFieldCount | Helpers/ClusterConfigurationHelper.cs:19-48 | corrected validation (the cluster checks plus no comma in any IP or in the password): among the configurations the cluster validator accepts, it accepts exactly those whose connection string reads back as `|addresses| + 3` fields, so it rejects nothing whose string was sound |
| Text.SplitCount | Helpers/ConfiguratinHelper.cs:23-34 | read back at a separator, a string yields exactly one piece more than it holds separators |
| Connection.FixedValidationReadsBack | Helpers/ConfiguratinHelper.cs:23-34 | a configuration the corrected validation accepts reads back at its commas as exactly its address fields and its three option fields |
| Connection.FixedValidationRejectsCommaInPassword | Helpers/ClusterConfigurationHelper.cs:32-35 | the corrected validation rejects the configuration with the password `a,b` |
| Connection.NewClusterHelper | Helpers/ClusterConfigurationHelper.cs:9-12 | the configuration goes into the base property that the connection-string builder reads; no handle is cached |
| Connection.ClusterHelperConnectsWithItsConfig | Helpers/ClusterConfigurationHelper.cs:9-12 | a cluster helper with a valid configuration connects with that configuration's non-empty connection string |
| Connection.NewSentinelHelper | Helpers/SentinelConfigurationHelper.cs:11-16 | as written, the constructor fills only the hiding property; the base property stays null and nothing is cached |
| Connection.SentinelHelperConnectsWithEmptyString | Helpers/SentinelConfigurationHelper.cs:11-16 | as written, the helper validates its own configuration, but its first connection is requested with the empty string, whatever the configuration |
| Connection.NewSentinelHelperFixed | Helpers/SentinelConfigurationHelper.cs:13-16 | corrected constructor: the base property receives the configuration's base part as well |
| Connection.FixedSentinelHelperConnectsWithItsConfig | Helpers/SentinelConfigurationHelper.cs:11-16 | with the corrected constructor, a valid sentinel configuration connects with its own non-empty connection string |
| SharedConnection.SentinelConnectionString | Helpers/ConfigurationHelper.cs:23-30 | a null address list throws; otherwise the string is built |
| SharedConnection.SentinelConnectionStringFields | Helpers/ConfigurationHelper.cs:25-30 | when no IP and not the password holds a comma, the string read back at its commas is one `IP:Port` field per redis address in order and then `password=P`, with no timeout, no admin switch and no trailing empty field |
| SharedConnection.SentinelConnectionStringIgnoresMonitors | Helpers/ConfigurationHelper.cs:25-28 | sentinel addresses never reach the string |
| SharedConnection.GetSentinelRDBConnection | Helpers/ConfigurationHelper.cs:13-37 | returns the cached multiplexer and ignores the argument; otherwise a null argument or address list throws and nothing is cached, and anything else opens a never-issued handle from the string and caches it |
| SharedConnection.CachedOnce | Helpers/ConfigurationHelper.cs:15-18 | after one successful call, every later call returns that handle, whatever configuration it is given |
| Results.NewTestParams | Models/TestResults.cs:41-57 | a fresh `TestParams` has all four timings and the lost-write count at 0 |
| Results.NewTestResults | Models/TestResults.cs:28-37 | the load is recorded, the status is null, and all five per-type records are fresh, zeroed and independent values |
| Results.Merge | Helpers/TestHelper.cs:139-147 | each aggregate timing grows by exactly the worker's timing; the worker's detail lines follow the existing ones, which are kept |
| Results.MergeAllSums | Helpers/TestHelper.cs:135-148 | merging workers one after another adds up all their timings and concatenates all their detail lines in merge order |
| Results.MergeOrderIrrelevantForTimings | Helpers/TestHelper.cs:141-144 | the merged timings do not depend on which of two workers takes the lock first |
| Results.CsDivOfNonNegative | Helpers/TestHelper.cs:159-165 | for a non-negative timing and a positive count, C#'s truncating division is the floor and stays between 0 and the timing |
| Results.AverageOut | Helpers/TestHelper.cs:159-165 | a client count of 0 throws a division by zero; otherwise load and details are kept, and for a positive count non-negative timings become their floor quotients, non-negative and no larger |
| Results.AverageOfEqualWorkers | Helpers/TestHelper.cs:135-165 | merging N workers that report the same non-negative timings into a fresh aggregate and averaging over N gives those timings back, with every worker's lines kept |
| CsArith.Wrap32OfDouble | Helpers/TestHelper.cs:154 | `testload * 2` in unchecked 32-bit arithmetic wraps around at most once, by exactly 2^32 |
| CsArith.CsRemOfNonNegative | Helpers/TestHelper.cs:154 | C#'s `%` of a non-negative draw lies in `[0, \|m\|)` and does not exceed the draw |
| MasterFail.SleepMilliseconds | Helpers/TestHelper.cs:152-154 | throws a division by zero exactly for a load of 0 or `int.MinValue`; otherwise sleeps at least 1 ms, at most twice the load's magnitude, and at most `2·load` for a positive load |
| MasterFail.SimulateMasterFailAfterDelay | Helpers/TestHelper.cs:150-157 | throws a division by zero before shutting anything down exactly when the delay throws; otherwise it waits at least 1 ms and at most twice the load's magnitude (at most `2·load` for a positive load), then shuts down exactly the connected masters, or nothing without a cached handle |
| Workload.Recover | Helpers/TestHelper.cs:28-31 | the catch block's `Reconnect()` succeeds exactly when the remembered configuration yields a connection string; the new handle becomes both the cached one and the worker's database; the store and the configuration are kept |
| Workload.RunPhase | Helpers/TestHelper.cs:22-32 | visits iterations `1..n` in order: a non-failing iteration has its phase's effect on its own key; a failing iteration leaves its key untouched and counts one reconnect; no key outside the key space changes; the phase ends early only if a reconnect throws |
| Workload.WriteKeys | Helpers/TestHelper.cs:22-32 | every non-failing `prefix + i` holds `i` afterwards; the failing ones and all other keys are untouched |
| Workload.ReadKeys | Helpers/TestHelper.cs:47-57 | reads leave the store exactly as it was, with or without failures |
| Workload.UpdateKeys | Helpers/TestHelper.cs:73-91 | every non-failing `prefix + i` moves by `+(i % 10)` or `-(i % 10)` as the random draw says, so by at most 9 either way; a missing key counts as 0 |
| Workload.RemoveKeys | Helpers/TestHelper.cs:106-116 | no non-failing `prefix + i` remains; the failing ones and all other keys are untouched |
| Workload.BasicStringTest | Helpers/TestHelper.cs:12-129 | succeeds exactly when reconnecting can succeed or nothing fails, since a reconnect that throws inside a catch block escapes the method; records the load and the four stopwatch readings; appends exactly four detail lines, write, read, update, remove, in that order; reconnects once per failure; without failures the store ends as it began minus the thread's key space |
| Workload.ParallelClientWork | Helpers/TestHelper.cs:135-148 | succeeds exactly when reconnecting can succeed or the worker meets no failure; runs one worker with the aggregate's per-client load and merges it: timings added, and that worker's four lines appended after the existing details |
| SentinelWorkload.SetEach | Helpers/SentinelHelper.cs:45-48 | after the loop every `key_i` for `i` in `1..n` holds `scale * i`, and no other key changes |
| SentinelWorkload.CountMissing | Helpers/SentinelHelper.cs:57-65 | the count of empty reads is at most `n`, and is 0 exactly when every key of the range is present |
| SentinelWorkload.MissingAreTheDropped | Helpers/SentinelHelper.cs:57-65 | after a full write, the empty reads are exactly those range keys that were dropped in between |
| SentinelWorkload.DeleteEach | Helpers/SentinelHelper.cs:86-89 | the delete loop leaves the store minus exactly the keys `key_1 .. key_n` |
| SentinelWorkload.BasicStringTest | Helpers/SentinelHelper.cs:39-94 | the write phase stores `i` and the update phase `10 * i` at every `key_i`; afterwards none of the range remains and every other key is as before; the four timings are the stopwatch readings; the lost-write count grows by exactly the number of range keys dropped between write and read; no other part of the results changes |
| SentinelWorkload.NoDropsNoLostWrites | Helpers/SentinelHelper.cs:57-65 | with nothing dropped between the phases, the lost-write count is unchanged |
| SentinelWorkload.PushAll | Helpers/SentinelHelper.cs:102-105 | left-pushing `1..n` puts `n` pushed values on top of the old list, newest first, and leaves the old list under them intact |
| SentinelWorkload.PopAll | Helpers/SentinelHelper.cs:114-122 | `n` left-pops take the first `min(n, \|l\|)` values, leave the rest, and count every pop on an empty list as lost |
| SentinelWorkload.BasicListTest | Helpers/SentinelHelper.cs:96-127 | the pushes stack `load, .., 1` on the list; the `load` pops act on the list as they find it, take its first `min(load, length)` values, and count every pop that finds it empty as a lost write; only the list record's write time, read time and lost count change |
| SentinelWorkload.UndisturbedListTest | Helpers/SentinelHelper.cs:96-127 | when nothing touches the list between the phases, the pops take back exactly what was pushed: the list ends as it began and no write is lost |
| SentinelWorkload.PopsReturnPushesReversed | Helpers/SentinelHelper.cs:102-122 | the pops return exactly the pushed values, last pushed first |

## Left out

- Controllers (`ClusterController`, `SentinelController`, `ValuesController`): HTTP routing, creating and joining threads, and status strings. They also call members that are not part of this model.
- `ITest`: an interface without behaviour.
- The connection library itself is replaced by `Connect` and by endpoint lists given as input. This covers what connecting, `GetEndPoints`, `GetServer`, `FlushAllDatabases`, `Shutdown` and the master/replica routing flags really do.
- Concurrency. The `lock` blocks, cross-thread interleavings of `ParralelClientWork`, and the check-then-lock race in `GetRDBConnection` and `GetSentinelRDBConnection` are all out. Each call is modelled as if it ran alone, and in that setting the race cannot show.
- `Thread.Sleep`: only the length of the sleep is modelled.
- Stopwatch readings, `Random` draws and thread ids are inputs, not computed values. `Random.Next()` is taken to lie in `[0, int.MaxValue)`.
- Exception taxonomy. Every exception a store operation throws becomes one abstract "connection lost" event, and the failing operation is assumed to have no effect on the store.
- The exceptions of the connection library itself are also out. The `SentinelHelper` tests call the store without a `catch`, so in the model every store command of those tests succeeds.
- Overflow of the `long` timings, the `int` lost-write counter and the `int` loop counters. Values are unbounded. Two `int` effects of the source are therefore not modelled:
  - `StringSet(key, i * 10)` in `SentinelHelper` wraps around for `i > 214748364`; the model stores `10 * i` exactly.
  - With a load of `int.MaxValue`, `i++` wraps and `i <= load` stays true, so every `for` loop of `SentinelHelper` and `TestHelper` would never end; the model's loops end after `load` iterations.
- Null elements inside address lists: list elements are never null here.
- Connection.SplitAddressSegments: proved only for IPs without a comma; no validator rejects one, and a comma inside an IP adds fields just as one in the password does (see Findings).
- Connection.ConnectionStringFields: proved only when no IP and not the password holds a comma, for the same reason; `Connection.CommaInPasswordSplitsIt` gives the read-back for a password with one comma.
- SharedConnection.SentinelConnectionStringFields: proved only when no IP and not the password holds a comma; the older validator does not reject one either.
- `TestHelper` calls `SentinelConfigurationHelper.Reconnect()` and `SimulateMasterFail(connection)` as static members, but the helper only has instance members. The model calls the instance operations on the shared helper, and the server list of the given connection is an input.
- `TestHelper.BasicListTest` has an empty body and is not modelled. `TestHelper`'s result type (load, timings, detail lines) does not match `Models/TestResults.cs`, so it has its own record, `Results.RunResult`. `TestHelper` reads a `TestLoadPerThread` member that `TestResults` does not declare; the model takes it to be the load the result record was created with.
- Workload.Recover: connecting with the empty string is modelled as succeeding, because `Connect` mints a handle for any string; only a thrown connection-string build makes a reconnect fail. What the client library does with a string that names no server is outside the model.
- The duplicate `Helpers.SentinelConfiguration` and `Helpers.Address` types are folded into `Config.LegacySentinelConfig` and `Config.Address`.
- Models/AppSettingConfigurations.cs and Models/ConfigurationSettings.cs appear only as the datatypes of module `Config`.

## Findings

| source | as written | input that shows it | evidently intended | confidence | as-written member | corrected member |
|---|---|---|---|---|---|---|
| Helpers/SentinelConfigurationHelper.cs:11-16 | the constructor assigns only the `new` property that hides the base `rdbConfiguration`; every inherited operation reads the base property, which stays null | any valid sentinel configuration: `IsConfigValid()` is true, yet `GetRDBConnection()` asks to connect with the empty string, so it never reaches the configured servers | the configuration also reaches the base property, so the helper connects to the configured servers | high, from reading the property declarations; not executed | Connection.SentinelHelperConnectsWithEmptyString | Connection.FixedSentinelHelperConnectsWithItsConfig |
| Helpers/ConfiguratinHelper.cs:30 | the password is written into the comma-separated connection string as it is, and the validators (Helpers/ClusterConfigurationHelper.cs:32, Helpers/SentinelConfigurationHelper.cs:42) only reject a null or empty one | the cluster configuration with one address `h:1`, password `a,b`, 1 client and timeout 1000: it is accepted, and its string reads back as `h:1`, `password=a`, `b`, `allowAdmin = true`, `connectTimeout=1000` | a password (or IP) that would break the string is rejected before connecting, so the string always reads back as the configured fields | medium, the intent is inferred from the format; not executed | Connection.CommaInPasswordSplitsIt | Connection.FixedIffFieldCount |

=== FILE: config.dfy ===
/**
 * The configuration records read from the application settings and the three
 * validators that decide whether a record may be used: the sentinel helper's,
 * the cluster helper's and the older static sentinel helper's.
 *
 * A C# `null` is `None`. The elements of an address list are never null here.
 */
module Config {
  import opened Wrappers

  /** One store endpoint (`Models.Address`, and the identical legacy `Helpers.Address`). */
  datatype Address = Address(ip: Option<string>, port: int)

  /** `Models.RedisDBConfiguration`; `Models.ClusterConfiguration` adds nothing to it. */
  datatype RedisDbConfig = RedisDbConfig(
    redisAddresses: Option<seq<Address>>,
    password: Option<string>,
    parallelClientCount: int,
    connectTimeout: int)

  type ClusterConfig = RedisDbConfig

  /** `Models.SentinelConfiguration`: the inherited part and the monitor addresses. */
  datatype SentinelConfig = SentinelConfig(base: RedisDbConfig, sentinelAddresses: Option<seq<Address>>)

  /** The older `Helpers.SentinelConfiguration`, which has no count and no timeout. */
  datatype LegacySentinelConfig = LegacySentinelConfig(
    redisAddresses: Option<seq<Address>>,
    sentinelAddresses: Option<seq<Address>>,
    password: Option<string>)

  /** The smallest connect timeout, in milliseconds, that the validators accept. */
  const MinConnectTimeout: int := 1000

  predicate IsNullOrEmpty(s: Option<string>) {
    s.None? || |s.value| == 0
  }

  /** A null list, or one with no element (`list == null || list.Count() == 0`). */
  predicate IsNullOrEmptyList(l: Option<seq<Address>>) {
    l.None? || |l.value| == 0
  }

  /** The lambda every validator passes to `Any`. */
  predicate IsBadAddress(a: Address) {
    IsNullOrEmpty(a.ip) || a.port <= 0
  }

  /** `addresses.Any(IsBadAddress)`, evaluated front to back. */
  function AnyBadAddress(addresses: seq<Address>): (r: bool)
    ensures r <==> exists k :: 0 <= k < |addresses| && IsBadAddress(addresses[k])
  {
    if |addresses| == 0 then false
    else IsBadAddress(addresses[0]) || AnyBadAddress(addresses[1..])
  }

  // Reference definitions: the invariant a usable descriptor satisfies, stated
  // field by field with no regard to the order in which the code checks it.

  ghost predicate AddressOk(a: Address) {
    a.ip.Some? && |a.ip.value| > 0 && a.port > 0
  }

  ghost predicate AddressListOk(l: Option<seq<Address>>) {
    l.Some? && |l.value| > 0 && forall k :: 0 <= k < |l.value| ==> AddressOk(l.value[k])
  }

  ghost predicate CredentialOk(p: Option<string>) {
    p.Some? && |p.value| > 0
  }

  ghost predicate ClusterDescriptorOk(c: RedisDbConfig) {
    && AddressListOk(c.redisAddresses)
    && CredentialOk(c.password)
    && c.parallelClientCount >= 1
    && c.connectTimeout >= MinConnectTimeout
  }

  ghost predicate SentinelDescriptorOk(c: SentinelConfig) {
    && ClusterDescriptorOk(c.base)
    && AddressListOk(c.sentinelAddresses)
  }

  ghost predicate LegacyDescriptorOk(c: LegacySentinelConfig) {
    && AddressListOk(c.redisAddresses)
    && AddressListOk(c.sentinelAddresses)
    && CredentialOk(c.password)
  }

  /** `SentinelConfigurationHelper.IsConfigValid`, check by check. */
  function SentinelIsConfigValid(config: Option<SentinelConfig>): (r: bool)
    ensures config.None? ==> !r
    ensures config.Some? && IsNullOrEmptyList(config.value.base.redisAddresses) ==> !r
    ensures config.Some? && IsNullOrEmptyList(config.value.sentinelAddresses) ==> !r
    ensures r ==> forall k :: 0 <= k < |config.value.base.redisAddresses.value| ==>
                    !IsBadAddress(config.value.base.redisAddresses.value[k])
    ensures r ==> forall k :: 0 <= k < |config.value.sentinelAddresses.value| ==>
                    !IsBadAddress(config.value.sentinelAddresses.value[k])
    ensures r ==> !IsNullOrEmpty(config.value.base.password)
    ensures r ==> config.value.base.parallelClientCount >= 1
    ensures r ==> config.value.base.connectTimeout >= MinConnectTimeout
    ensures r <==> config.Some? && SentinelDescriptorOk(config.value)
  {
    if config.None? || IsNullOrEmptyList(config.value.base.redisAddresses)
       || IsNullOrEmptyList(config.value.sentinelAddresses) then false
    else
      var c := config.value;
      if AnyBadAddress(c.base.redisAddresses.value) then false
      else if AnyBadAddress(c.sentinelAddresses.value) then false
      else if IsNullOrEmpty(c.base.password) then false
      else if c.base.parallelClientCount < 1 then false
      else if c.base.connectTimeout < MinConnectTimeout then false
      else true
  }

  /** `ClusterConfigurationHelper.IsConfigValid`, check by check. */
  function ClusterIsConfigValid(config: Option<ClusterConfig>): (r: bool)
    ensures config.None? ==> !r
    ensures config.Some? && IsNullOrEmptyList(config.value.redisAddresses) ==> !r
    ensures r ==> forall k :: 0 <= k < |config.value.redisAddresses.value| ==>
                    !IsBadAddress(config.value.redisAddresses.value[k])
    ensures r ==> !IsNullOrEmpty(config.value.password)
    ensures r ==> config.value.parallelClientCount >= 1
    ensures r ==> config.value.connectTimeout >= MinConnectTimeout
    ensures r <==> config.Some? && ClusterDescriptorOk(config.value)
  {
    if config.None? || IsNullOrEmptyList(config.value.redisAddresses) then false
    else
      var c := config.value;
      if AnyBadAddress(c.redisAddresses.value) then false
      else if IsNullOrEmpty(c.password) then false
      else if c.parallelClientCount < 1 then false
      else if c.connectTimeout < MinConnectTimeout then false
      else true
  }

  /** The static `SentinelHelper.IsConfigValid`: addresses and password only. */
  function LegacyIsConfigValid(config: Option<LegacySentinelConfig>): (r: bool)
    ensures config.None? ==> !r
    ensures config.Some? && IsNullOrEmptyList(config.value.redisAddresses) ==> !r
    ensures config.Some? && IsNullOrEmptyList(config.value.sentinelAddresses) ==> !r
    ensures r ==> forall k :: 0 <= k < |config.value.redisAddresses.value| ==>
                    !IsBadAddress(config.value.redisAddresses.value[k])
    ensures r ==> forall k :: 0 <= k < |config.value.sentinelAddresses.value| ==>
                    !IsBadAddress(config.value.sentinelAddresses.value[k])
    ensures r ==> !IsNullOrEmpty(config.value.password)
    ensures r <==> config.Some? && LegacyDescriptorOk(config.value)
  {
    if config.None? || IsNullOrEmptyList(config.value.redisAddresses)
       || IsNullOrEmptyList(config.value.sentinelAddresses) then false
    else
      var c := config.value;
      if AnyBadAddress(c.redisAddresses.value) then false
      else if AnyBadAddress(c.sentinelAddresses.value) then false
      else if IsNullOrEmpty(c.password) then false
      else true
  }

  /** The same data seen through the older configuration type. */
  function ToLegacy(c: SentinelConfig): LegacySentinelConfig {
    LegacySentinelConfig(c.base.redisAddresses, c.sentinelAddresses, c.base.password)
  }

  /** A record the sentinel helper accepts is accepted by the older validator too. */
  lemma SentinelValidImpliesLegacyValid(c: SentinelConfig)
    ensures SentinelIsConfigValid(Some(c)) ==> LegacyIsConfigValid(Some(ToLegacy(c)))
  {
  }

  /** The converse fails only on the two checks the older validator lacks. */
  lemma LegacyValidWithBoundsImpliesSentinelValid(c: SentinelConfig)
    ensures LegacyIsConfigValid(Some(ToLegacy(c)))
            && c.base.parallelClientCount >= 1
            && c.base.connectTimeout >= MinConnectTimeout
            ==> SentinelIsConfigValid(Some(c))
  {
  }

  /** The sentinel check is the cluster check plus the monitor addresses. */
  lemma SentinelValidIffClusterValidAndMonitorsOk(c: SentinelConfig)
    ensures SentinelIsConfigValid(Some(c)) <==> ClusterIsConfigValid(Some(c.base)) && AddressListOk(c.sentinelAddresses)
  {
  }
}

=== FILE: connection.dfy ===
/**
 * The abstract `ConfigurationHelper` of `Helpers/ConfiguratinHelper.cs` and its
 * two subclasses, as a state record and pure transitions.
 *
 * A helper remembers an optional cached connection handle (the multiplexer) and
 * the configuration the connection string is built from. Opening a connection is
 * outside the model: `Connect` only mints a handle that has never been issued
 * before, recording the connection string it was opened with. The endpoints of a
 * handle and their connected/slave status are supplied by the caller.
 */
module Connection {
  import opened Wrappers
  import opened Text
  import opened Config

  /** An open multiplexer: a serial number and the string it was opened with. */
  datatype Handle = Handle(id: nat, connectionString: string)

  /** One server behind a multiplexer, as `GetServer(endPoint)` reports it. */
  datatype Endpoint = Endpoint(name: string, isConnected: bool, isSlave: bool)

  /**
   * The helper object. `rdbConfiguration` is the base-class property that every
   * inherited operation reads. The sentinel subclass declares a second property of
   * the same name with `new`; it is `sentinelConfiguration` here.
   */
  datatype Helper =
    | SentinelHelper(
        multiplexer: Option<Handle>,
        rdbConfiguration: Option<RedisDbConfig>,
        sentinelConfiguration: Option<SentinelConfig>,
        issued: nat)
    | ClusterHelper(
        multiplexer: Option<Handle>,
        rdbConfiguration: Option<RedisDbConfig>,
        issued: nat)
  {
    /** The cached handle, if any, is one this helper has issued. */
    predicate Valid() {
      multiplexer.Some? ==> multiplexer.value.id < issued
    }
  }

  /**
   * The overridden `IsConfigValid`: each subclass checks its own property, so the
   * sentinel helper reads the hiding property and never the base one.
   */
  function HelperIsConfigValid(h: Helper): (r: bool)
    ensures h.SentinelHelper? ==> (r <==> SentinelIsConfigValid(h.sentinelConfiguration))
    ensures h.ClusterHelper? ==> (r <==> ClusterIsConfigValid(h.rdbConfiguration))
  {
    match h
    case SentinelHelper(_, _, c, _) => SentinelIsConfigValid(c)
    case ClusterHelper(_, c, _) => ClusterIsConfigValid(c)
  }

  /** The state after a call, and what the call returned or threw. */
  datatype Step<T> = Step(helper: Helper, result: Result<T>)

  /** The outcome of `FlushDatabase`: its return value and the servers it flushed. */
  datatype FlushOutcome = FlushOutcome(flushed: bool, flushedServers: seq<Endpoint>)

  /** Stand-in for `ConnectionMultiplexer.Connect`: the next handle in the helper's series. */
  function Connect(connectionString: string, issued: nat): Handle {
    Handle(issued, connectionString)
  }

  /** `String.Format("{0}", s)` renders a null string as nothing. */
  function Render(s: Option<string>): string {
    if s.None? then "" else s.value
  }

  /** One address as it appears in a connection string, without the trailing comma. */
  function AddressField(a: Address): string {
    Render(a.ip) + ":" + IntToString(a.port)
  }

  function AddressFields(addresses: seq<Address>): (fields: seq<string>)
    ensures |fields| == |addresses|
    ensures forall k :: 0 <= k < |addresses| ==> fields[k] == AddressField(addresses[k])
  {
    if |addresses| == 0 then [] else [AddressField(addresses[0])] + AddressFields(addresses[1..])
  }

  /** `"{IP}:{Port},"` for every address, in list order. */
  function AddressSegments(addresses: seq<Address>): string {
    Terminated(AddressFields(addresses), ',')
  }

  predicate NoCommaInIps(addresses: seq<Address>) {
    forall k :: 0 <= k < |addresses| ==> ',' !in Render(addresses[k].ip)
  }

  /** The fixed admin switch every connection string carries. */
  const AllowAdmin: string := "allowAdmin = true"

  /** What follows the addresses: password, admin switch and timeout. */
  function OptionSegments(c: RedisDbConfig): string {
    "password=" + Render(c.password) + "," + AllowAdmin + "," + "connectTimeout=" + IntToString(c.connectTimeout)
  }

  /**
   * `GetRDBConnectionString`: empty for a null configuration; a null address list
   * makes the `foreach` throw.
   */
  function ConnectionString(config: Option<RedisDbConfig>): (r: Result<string>)
    ensures config.None? ==> r == Success("")
    ensures r.Failure? <==> config.Some? && config.value.redisAddresses.None?
    ensures r.Failure? ==> r.error == NullReference
  {
    if config.None? then Success("")
    else
      var c := config.value;
      if c.redisAddresses.None? then Failure(NullReference)
      else Success(AddressSegments(c.redisAddresses.value) + OptionSegments(c))
  }

  lemma AddressFieldHasNoComma(a: Address)
    requires ',' !in Render(a.ip)
    ensures ',' !in AddressField(a)
  {
  }

  /** The comma-separated pieces of the address part, given what follows it. */
  lemma SplitAddressSegments(addresses: seq<Address>, rest: string)
    requires NoCommaInIps(addresses)
    ensures Split(AddressSegments(addresses) + rest, ',') == AddressFields(addresses) + Split(rest, ',')
  {
    var fields := AddressFields(addresses);
    forall k | 0 <= k < |fields|
      ensures ',' !in fields[k]
    {
      AddressFieldHasNoComma(addresses[k]);
    }
    SplitTerminated(fields, ',', rest);
  }

  lemma NoCommaInPasswordField(c: RedisDbConfig)
    requires ',' !in Render(c.password)
    ensures ',' !in "password=" + Render(c.password)
  {
  }

  lemma NoCommaInAllowAdmin()
    ensures ',' !in AllowAdmin
  {
  }

  /** The option part as three fields joined by commas. */
  lemma OptionSegmentsShape(c: RedisDbConfig)
    ensures OptionSegments(c)
            == ("password=" + Render(c.password)) + [','] + (AllowAdmin + [','] + ("connectTimeout=" + IntToString(c.connectTimeout)))
  {
  }

  /** The pieces after the addresses: password, admin switch, timeout. */
  lemma SplitOptionSegments(c: RedisDbConfig)
    requires ',' !in Render(c.password)
    ensures Split(OptionSegments(c), ',')
            == ["password=" + Render(c.password), AllowAdmin, "connectTimeout=" + IntToString(c.connectTimeout)]
  {
    var pw := "password=" + Render(c.password);
    var timeout := "connectTimeout=" + IntToString(c.connectTimeout);
    OptionSegmentsShape(c);
    NoCommaInPasswordField(c);
    NoCommaInAllowAdmin();
    SplitAtFirst(pw, ',', AllowAdmin + [','] + timeout);
    SplitAtFirst(AllowAdmin, ',', timeout);
  }

  /**
   * Read back at its commas, a connection string lists each address as `IP:Port`
   * in order, then the password, the admin switch and the timeout.
   */
  lemma ConnectionStringFields(c: RedisDbConfig)
    requires c.redisAddresses.Some?
    requires NoCommaInIps(c.redisAddresses.value)
    requires ',' !in Render(c.password)
    ensures ConnectionString(Some(c)).Success?
    ensures Split(ConnectionString(Some(c)).value, ',')
            == AddressFields(c.redisAddresses.value)
               + ["password=" + Render(c.password), AllowAdmin, "connectTimeout=" + IntToString(c.connectTimeout)]
  {
    SplitAddressSegments(c.redisAddresses.value, OptionSegments(c));
    SplitOptionSegments(c);
  }

  /** The call would open a connection rather than throw. */
  predicate CanConnect(h: Helper) {
    ConnectionString(h.rdbConfiguration).Success?
  }

  /** `GetRDBConnection`: the cached handle if there is one, else a new one that is cached. */
  function GetRDBConnection(h: Helper): (r: Step<Handle>)
    ensures h.multiplexer.Some? ==> r == Step(h, Success(h.multiplexer.value))
    ensures h.multiplexer.None? ==> (r.result.Success? <==> CanConnect(h))
    ensures h.multiplexer.None? && r.result.Success? ==>
              && r.result.value.id == h.issued
              && r.result.value.connectionString == ConnectionString(h.rdbConfiguration).value
              && r.helper == h.(multiplexer := Some(r.result.value), issued := h.issued + 1)
    ensures r.result.Failure? ==> r.helper == h
    ensures h.Valid() ==> r.helper.Valid()
  {
    if h.multiplexer.Some? then Step(h, Success(h.multiplexer.value))
    else
      match ConnectionString(h.rdbConfiguration)
      case Failure(e) => Step(h, Failure(e))
      case Success(s) =>
        var m := Connect(s, h.issued);
        Step(h.(multiplexer := Some(m), issued := h.issued + 1), Success(m))
  }

  /** Asking twice gives the same handle and no further change. */
  lemma GetRDBConnectionIdempotent(h: Helper)
    ensures var first := GetRDBConnection(h);
            first.result.Success? ==> GetRDBConnection(first.helper) == Step(first.helper, first.result)
  {
  }

  /** The remembered configuration after a call with an optional replacement. */
  function ChosenConfig(h: Helper, config: Option<RedisDbConfig>): Option<RedisDbConfig> {
    if config.Some? then config else h.rdbConfiguration
  }

  /**
   * `GetRDBConnectionForClinet`: a brand-new handle for one client; the cached
   * handle is left alone, and a non-null argument replaces the configuration first.
   */
  function GetRDBConnectionForClient(h: Helper, config: Option<RedisDbConfig>): (r: Step<Handle>)
    ensures r.helper.multiplexer == h.multiplexer
    ensures r.helper.rdbConfiguration == ChosenConfig(h, config)
    ensures r.result.Success? <==> ConnectionString(ChosenConfig(h, config)).Success?
    ensures r.result.Success? ==>
              && r.result.value.id == h.issued
              && r.result.value.connectionString == ConnectionString(ChosenConfig(h, config)).value
              && r.helper.issued == h.issued + 1
    ensures h.Valid() && r.result.Success? ==> Some(r.result.value) != h.multiplexer
    ensures h.Valid() ==> r.helper.Valid()
  {
    var h1 := h.(rdbConfiguration := ChosenConfig(h, config));
    match ConnectionString(h1.rdbConfiguration)
    case Failure(e) => Step(h1, Failure(e))
    case Success(s) => Step(h1.(issued := h1.issued + 1), Success(Connect(s, h1.issued)))
  }

  /**
   * `Reconnect`: always opens a new handle and caches it in place of the old one;
   * a non-null argument replaces the configuration first, even if opening then throws.
   */
  function Reconnect(h: Helper, config: Option<RedisDbConfig>): (r: Step<Handle>)
    ensures r.helper.rdbConfiguration == ChosenConfig(h, config)
    ensures r.result.Success? <==> ConnectionString(ChosenConfig(h, config)).Success?
    ensures r.result.Success? ==>
              && r.result.value.id == h.issued
              && r.result.value.connectionString == ConnectionString(ChosenConfig(h, config)).value
              && r.helper.multiplexer == Some(r.result.value)
              && r.helper.issued == h.issued + 1
    ensures r.result.Failure? ==> r.helper.multiplexer == h.multiplexer && r.helper.issued == h.issued
    ensures h.Valid() && r.result.Success? ==> r.helper.multiplexer != h.multiplexer
    ensures h.Valid() ==> r.helper.Valid()
  {
    var h1 := h.(rdbConfiguration := ChosenConfig(h, config));
    match ConnectionString(h1.rdbConfiguration)
    case Failure(e) => Step(h1, Failure(e))
    case Success(s) =>
      var m := Connect(s, h1.issued);
      Step(h1.(multiplexer := Some(m), issued := h1.issued + 1), Success(m))
  }

  /** A server both commands act on: reachable and not a replica. */
  predicate IsConnectedMaster(e: Endpoint) {
    e.isConnected && !e.isSlave
  }

  /** The connected masters among `endpoints`. */
  function ConnectedMasters(endpoints: seq<Endpoint>): (r: seq<Endpoint>)
    ensures |r| <= |endpoints|
    ensures forall e :: e in r <==> e in endpoints && IsConnectedMaster(e)
  {
    if |endpoints| == 0 then []
    else
      var last := endpoints[|endpoints| - 1];
      var front := endpoints[..|endpoints| - 1];
      assert forall e :: e in endpoints <==> e in front || e == last;
      ConnectedMasters(front) + (if IsConnectedMaster(last) then [last] else [])
  }

  /**
   * `FlushDatabase` over the servers of the cached handle: nothing without a handle,
   * otherwise every connected master is flushed, and replicas and unreachable
   * servers are skipped.
   */
  function FlushDatabase(h: Helper, endpoints: seq<Endpoint>): (r: FlushOutcome)
    ensures r.flushed <==> h.multiplexer.Some?
    ensures !r.flushed ==> r.flushedServers == []
    ensures r.flushed ==> forall e :: e in r.flushedServers <==> e in endpoints && IsConnectedMaster(e)
  {
    if h.multiplexer.None? then FlushOutcome(false, [])
    else FlushOutcome(true, ConnectedMasters(endpoints))
  }

  /** `SimulateMasterFail`: shuts down every connected master, or nothing without a handle. */
  function SimulateMasterFail(h: Helper, endpoints: seq<Endpoint>): (shutDown: seq<Endpoint>)
    ensures h.multiplexer.None? ==> shutDown == []
    ensures h.multiplexer.Some? ==> forall e :: e in shutDown <==> e in endpoints && IsConnectedMaster(e)
  {
    if h.multiplexer.None? then [] else ConnectedMasters(endpoints)
  }

  /** `new ClusterConfigurationHelper(config)`: the configuration goes into the base property. */
  function NewClusterHelper(config: Option<ClusterConfig>): (h: Helper)
    ensures h.Valid() && h.multiplexer.None?
    ensures h.rdbConfiguration == config
  {
    ClusterHelper(None, config, 0)
  }

  /**
   * `new SentinelConfigurationHelper(config)` as written: the constructor assigns
   * the hiding property only, so the base property stays null.
   */
  function NewSentinelHelper(config: Option<SentinelConfig>): (h: Helper)
    ensures h.Valid() && h.multiplexer.None?
    ensures h.SentinelHelper? && h.sentinelConfiguration == config
    ensures h.rdbConfiguration.None?
  {
    SentinelHelper(None, None, config, 0)
  }

  /** A cluster helper connects with the string built from the configuration it was given. */
  lemma ClusterHelperConnectsWithItsConfig(c: ClusterConfig)
    requires ClusterIsConfigValid(Some(c))
    ensures var r := GetRDBConnection(NewClusterHelper(Some(c)));
            && r.result.Success?
            && r.result.value.connectionString == ConnectionString(Some(c)).value
            && |r.result.value.connectionString| > 0
  {
  }

  /**
   * The sentinel helper as written validates its own configuration but connects
   * with an empty connection string, however valid that configuration is.
   */
  lemma SentinelHelperConnectsWithEmptyString(c: SentinelConfig)
    ensures HelperIsConfigValid(NewSentinelHelper(Some(c))) == SentinelIsConfigValid(Some(c))
    ensures GetRDBConnection(NewSentinelHelper(Some(c))).result == Success(Handle(0, ""))
  {
  }

  /** The constructor the sentinel helper evidently intends: both properties get the configuration. */
  function NewSentinelHelperFixed(config: Option<SentinelConfig>): (h: Helper)
    ensures h.Valid() && h.multiplexer.None?
    ensures h.SentinelHelper? && h.sentinelConfiguration == config
    ensures config.Some? ==> h.rdbConfiguration == Some(config.value.base)
  {
    SentinelHelper(None, if config.None? then None else Some(config.value.base), config, 0)
  }

  /** With the corrected constructor a valid sentinel configuration yields its own connection string. */
  lemma FixedSentinelHelperConnectsWithItsConfig(c: SentinelConfig)
    requires SentinelIsConfigValid(Some(c))
    ensures var r := GetRDBConnection(NewSentinelHelperFixed(Some(c)));
            && r.result.Success?
            && r.result.value.connectionString == ConnectionString(Some(c.base)).value
            && |r.result.value.connectionString| > 0
  {
  }

  /**
   * As written, nothing keeps a comma out of the password: the comma then ends
   * the password field early, and the string reads back with one field more,
   * the rest of the password standing where the admin switch should be.
   */
  lemma CommaInPasswordSplitsIt(c: RedisDbConfig, left: string, right: string)
    requires c.redisAddresses.Some? && NoCommaInIps(c.redisAddresses.value)
    requires c.password == Some(left + "," + right)
    requires ',' !in left && ',' !in right
    ensures ConnectionString(Some(c)).Success?
    ensures Split(ConnectionString(Some(c)).value, ',')
            == AddressFields(c.redisAddresses.value)
               + ["password=" + left, right, AllowAdmin, "connectTimeout=" + IntToString(c.connectTimeout)]
  {
    SplitAddressSegments(c.redisAddresses.value, OptionSegments(c));
    SplitCommaPasswordOptions(c, left, right);
  }

  lemma CommaPasswordOptionShape(c: RedisDbConfig, left: string, right: string)
    requires c.password == Some(left + "," + right)
    ensures OptionSegments(c)
            == ("password=" + left) + [','] + (right + [','] + (AllowAdmin + [','] + ("connectTimeout=" + IntToString(c.connectTimeout))))
  {
    OptionSegmentsShape(c);
    assert Render(c.password) == left + [','] + right;
  }

  lemma SplitCommaPasswordOptions(c: RedisDbConfig, left: string, right: string)
    requires c.password == Some(left + "," + right)
    requires ',' !in left && ',' !in right
    ensures Split(OptionSegments(c), ',')
            == ["password=" + left, right, AllowAdmin, "connectTimeout=" + IntToString(c.connectTimeout)]
  {
    var timeout := "connectTimeout=" + IntToString(c.connectTimeout);
    CommaPasswordOptionShape(c, left, right);
    NoCommaInAllowAdmin();
    SplitThreeFields("password=" + left, right, AllowAdmin, timeout);
  }

  /** Three comma-free fields and a comma-free tail, joined by commas, split back into four fields. */
  lemma SplitThreeFields(a: string, b: string, d: string, e: string)
    requires ',' !in a && ',' !in b && ',' !in d && ',' !in e
    ensures Split(a + [','] + (b + [','] + (d + [','] + e)), ',') == [a, b, d, e]
  {
    TerminatedThree(a, b, d, e);
    SplitTerminated([a, b, d], ',', e);
    SplitWithoutSeparator(e);
    assert [a, b, d] + [e] == [a, b, d, e];
  }

  lemma TerminatedThree(a: string, b: string, d: string, e: string)
    ensures Terminated([a, b, d], ',') + e == a + [','] + (b + [','] + (d + [','] + e))
  {
    assert [a, b, d][1..] == [b, d];
    assert [b, d][1..] == [d];
    var none: seq<string> := [];
    assert Terminated(none, ',') == "";
    assert [d][1..] == none;
    var td := Terminated([d], ',');
    assert td == d + [','] + "";
    var tbd := Terminated([b, d], ',');
    assert tbd == b + [','] + td;
    assert Terminated([a, b, d], ',') == a + [','] + tbd;
    assert td + e == d + [','] + e;
    assert tbd + e == b + [','] + (td + e);
  }

  lemma SplitWithoutSeparator(e: string)
    requires ',' !in e
    ensures Split(e, ',') == [e]
  {
  }

  /** A cluster configuration with the password `a,b`, which the validator accepts. */
  const CommaPasswordConfig: ClusterConfig := RedisDbConfig(Some([Address(Some("h"), 1)]), Some("a,b"), 1, 1000)

  lemma ValidatorAcceptsCommaInPassword()
    ensures ClusterIsConfigValid(Some(CommaPasswordConfig))
    ensures |Split(ConnectionString(Some(CommaPasswordConfig)).value, ',')| == 5
  {
    assert "a,b" == "a" + "," + "b";
    CommaInPasswordSplitsIt(CommaPasswordConfig, "a", "b");
  }

  /** The validation the connection string needs: no address or password holds a comma. */
  predicate ClusterIsConfigValidFixed(config: Option<ClusterConfig>) {
    ClusterIsConfigValid(config)
    && NoCommaInIps(config.value.redisAddresses.value)
    && ',' !in Render(config.value.password)
  }

  /**
   * Among the configurations the cluster validator accepts, the corrected check
   * rejects exactly those whose connection string reads back with extra fields.
   */
  lemma FixedIffFieldCount(c: ClusterConfig)
    requires ClusterIsConfigValid(Some(c))
    ensures ClusterIsConfigValidFixed(Some(c))
            <==> |Split(ConnectionString(Some(c)).value, ',')| == |c.redisAddresses.value| + 3
  {
    var addresses := c.redisAddresses.value;
    var str := ConnectionString(Some(c)).value;
    assert str == AddressSegments(addresses) + OptionSegments(c);
    SplitCount(str, ',');
    CountSepAppend(AddressSegments(addresses), OptionSegments(c), ',');
    CountSepTerminated(AddressFields(addresses), ',');
    AddressFieldsSeps(addresses);
    OptionSegmentsSeps(c);
  }

  /** The commas of an address field are those of its IP. */
  lemma AddressFieldSeps(a: Address)
    ensures CountSep(AddressField(a), ',') == CountSep(Render(a.ip), ',')
  {
    CountSepAppend(Render(a.ip), ":", ',');
    CountSepAppend(Render(a.ip) + ":", IntToString(a.port), ',');
  }

  lemma AddressFieldsSeps(addresses: seq<Address>)
    ensures SumSep(AddressFields(addresses), ',') == 0 <==> NoCommaInIps(addresses)
  {
    var fields := AddressFields(addresses);
    forall k | 0 <= k < |addresses|
      ensures ',' in fields[k] <==> ',' in Render(addresses[k].ip)
    {
      AddressFieldSeps(addresses[k]);
    }
  }

  /** The option part holds the password's commas and the two that join its fields. */
  lemma OptionSegmentsSeps(c: RedisDbConfig)
    ensures CountSep(OptionSegments(c), ',') == CountSep(Render(c.password), ',') + 2
  {
    var pw := "password=" + Render(c.password);
    var timeout := "connectTimeout=" + IntToString(c.connectTimeout);
    OptionSegmentsShape(c);
    CountSepJoin(AllowAdmin, ',', timeout);
    CountSepJoin(pw, ',', AllowAdmin + [','] + timeout);
    CountSepAppend("password=", Render(c.password), ',');
    NoCommaInAllowAdmin();
    assert CountSep(AllowAdmin, ',') == 0;
    NoCommaInOptionNames(c);
    assert CountSep(timeout, ',') == 0;
    assert CountSep("password=", ',') == 0;
  }

  lemma NoCommaInOptionNames(c: RedisDbConfig)
    ensures ',' !in "password="
    ensures ',' !in "connectTimeout=" + IntToString(c.connectTimeout)
  {
  }

  /**
   * A configuration the corrected validation accepts reads back at its commas as
   * exactly its address fields and its three option fields.
   */
  lemma FixedValidationReadsBack(c: ClusterConfig)
    requires ClusterIsConfigValidFixed(Some(c))
    ensures ConnectionString(Some(c)).Success?
    ensures Split(ConnectionString(Some(c)).value, ',')
            == AddressFields(c.redisAddresses.value)
               + ["password=" + Render(c.password), AllowAdmin, "connectTimeout=" + IntToString(c.connectTimeout)]
    ensures |Split(ConnectionString(Some(c)).value, ',')| == |c.redisAddresses.value| + 3
  {
    ConnectionStringFields(c);
  }

  lemma FixedValidationRejectsCommaInPassword()
    ensures !ClusterIsConfigValidFixed(Some(CommaPasswordConfig))
  {
    assert CommaPasswordConfig.password.value[1] == ',';
  }
}

=== FILE: cs_arith.dfy ===
/**
 * C#'s 32-bit `int` arithmetic as the modelled code uses it: truncating `/`,
 * a `%` whose sign follows the dividend, and unchecked wrap-around.
 */
module CsArith {

  const Int32Min: int := -0x8000_0000
  const Int32Max: int := 0x7FFF_FFFF
  const TwoTo32: int := 0x1_0000_0000

  predicate IsInt32(x: int) {
    Int32Min <= x <= Int32Max
  }

  function Abs(x: int): nat {
    if x < 0 then -x else x
  }

  /** C#'s integer `/`: truncates toward zero. */
  function CsDiv(a: int, b: int): int
    requires b != 0
  {
    var q := Abs(a) / Abs(b);
    if (a < 0) == (b < 0) then q else -q
  }

  /** C#'s `%`: the magnitude is `|a| mod |b|`, the sign that of `a`. */
  function CsRem(a: int, b: int): int
    requires b != 0
  {
    var r := Abs(a) % Abs(b);
    if a < 0 then -r else r
  }

  /** Unchecked 32-bit arithmetic: the exact result reduced into the `int` range. */
  function Wrap32(x: int): (r: int)
    ensures IsInt32(r)
    ensures IsInt32(x) ==> r == x
  {
    ModIdentity(x - Int32Min);
    (x - Int32Min) % TwoTo32 + Int32Min
  }

  lemma ModIdentity(y: int)
    ensures 0 <= y < TwoTo32 ==> y % TwoTo32 == y
  {
  }

  /** Doubling a 32-bit value wraps around at most once, in either direction. */
  lemma Wrap32OfDouble(t: int)
    requires IsInt32(t)
    ensures Wrap32(2 * t) == if 2 * t > Int32Max then 2 * t - TwoTo32
                             else if 2 * t < Int32Min then 2 * t + TwoTo32
                             else 2 * t
  {
  }

  /** A non-negative dividend leaves a remainder in `[0, |b|)`. */
  lemma CsRemOfNonNegative(a: int, b: int)
    requires a >= 0 && b != 0
    ensures 0 <= CsRem(a, b) < Abs(b)
    ensures CsRem(a, b) <= a
  {
    var m := Abs(b);
    var q := a / m;
    assert a == q * m + a % m;
    assert q >= 0;
    NonNegativeProduct(q, m);
  }

  lemma NonNegativeProduct(x: nat, y: nat)
    ensures x * y >= 0
  {
  }
}

=== FILE: keys.dfy ===
/**
 * The abstract key-value store the workloads run against, and the numbered key
 * spaces they use: `prefix + i.ToString()` for `i` in `1..n`.
 */
module Keys {
  import opened Text

  /** String keys and their integer values; a missing key reads as null. */
  type Store = map<string, int>

  function Key(prefix: string, i: int): string {
    prefix + IntToString(i)
  }

  /** The keys `prefix1 .. prefixN`; empty when `n < 1`. */
  function KeyRange(prefix: string, n: int): set<string> {
    set i | 1 <= i <= n :: Key(prefix, i)
  }

  /** The two stores hold the same thing at `k`. */
  predicate AgreeAt(a: Store, b: Store, k: string) {
    (k in a <==> k in b) && (k in a ==> a[k] == b[k])
  }

  /** The two stores hold the same thing at every key outside `keys`. */
  ghost predicate AgreeOutside(a: Store, b: Store, keys: set<string>) {
    forall k :: k !in keys ==> AgreeAt(a, b, k)
  }

  /** Different numbers give different keys under one prefix. */
  lemma KeyInjective(prefix: string, i: int, j: int)
    ensures Key(prefix, i) == Key(prefix, j) ==> i == j
  {
    if Key(prefix, i) == Key(prefix, j) {
      assert IntToString(i) == Key(prefix, i)[|prefix|..];
      assert IntToString(j) == Key(prefix, j)[|prefix|..];
      IntToStringInjective(i, j);
    }
  }

  lemma KeyInRange(prefix: string, i: int, n: int)
    ensures Key(prefix, i) in KeyRange(prefix, n) <==> 1 <= i <= n
  {
    if Key(prefix, i) in KeyRange(prefix, n) {
      var j :| 1 <= j <= n && Key(prefix, j) == Key(prefix, i);
      KeyInjective(prefix, i, j);
    }
  }

  /** The key space grows by exactly one key per step. */
  lemma KeyRangeStep(prefix: string, n: int)
    requires n >= 1
    ensures KeyRange(prefix, n) == KeyRange(prefix, n - 1) + {Key(prefix, n)}
  {
  }

  lemma KeyRangeEmpty(prefix: string, n: int)
    requires n <= 0
    ensures KeyRange(prefix, n) == {}
  {
    if Key(prefix, 1) in KeyRange(prefix, n) {
      KeyInRange(prefix, 1, n);
    }
    assert forall k :: k !in KeyRange(prefix, n);
  }

  /** `n` numbered keys are pairwise distinct, so the space holds exactly `n` keys. */
  lemma {:induction false} KeyRangeSize(prefix: string, n: int)
    ensures |KeyRange(prefix, n)| == if n >= 1 then n else 0
  {
    if n >= 1 {
      KeyRangeStep(prefix, n);
      KeyInRange(prefix, n, n - 1);
      KeyRangeSize(prefix, n - 1);
      var older := KeyRange(prefix, n - 1);
      assert Key(prefix, n) !in older;
      assert |older + {Key(prefix, n)}| == |older| + 1;
    } else {
      KeyRangeEmpty(prefix, n);
    }
  }

  /** Stores that agree at every key are the same store. */
  lemma AgreeEverywhere(a: Store, b: Store)
    requires forall k :: AgreeAt(a, b, k)
    ensures a == b
  {
    forall k | k in a
      ensures k in b && a[k] == b[k]
    {
      assert AgreeAt(a, b, k);
    }
    forall k | k in b
      ensures k in a
    {
      assert AgreeAt(a, b, k);
    }
  }

  /** Two steps that each leave the keys outside `keys` alone leave them alone together. */
  lemma AgreeOutsideTransitive(a: Store, b: Store, c: Store, keys: set<string>)
    requires AgreeOutside(a, b, keys) && AgreeOutside(b, c, keys)
    ensures AgreeOutside(a, c, keys)
  {
  }

  /** Untouched outside the key space and emptied inside it: the store minus that key space. */
  lemma ClearedKeySpace(before: Store, after: Store, prefix: string, n: int)
    requires AgreeOutside(before, after, KeyRange(prefix, n))
    requires forall i :: 1 <= i <= n ==> Key(prefix, i) !in after
    ensures after == before - KeyRange(prefix, n)
  {
    var expected := before - KeyRange(prefix, n);
    forall k
      ensures AgreeAt(expected, after, k)
    {
      if k in KeyRange(prefix, n) {
        var i :| 1 <= i <= n && Key(prefix, i) == k;
      }
    }
    AgreeEverywhere(expected, after);
  }
}

=== FILE: master_fail.dfy ===
/**
 * `TestHelper.SimulateMasterFail`: sleep for a random time bounded by the load,
 * then shut down the connected masters through the helper's cached connection.
 * The random draw is an input; the sleep itself is not modelled, only its length.
 */
module MasterFail {
  import opened Wrappers
  import opened CsArith
  import opened Connection

  /** The upper bound (exclusive) of `Random.Next()`. */
  const DrawBound: int := Int32Max

  /**
   * The sleep length `rnd.Next() % (testload * 2) + 1`, in 32-bit arithmetic.
   * The doubling wraps around, so besides a load of 0 a load of `int.MinValue`
   * also gives a zero modulus and throws; every other load sleeps at least 1 ms
   * and at most twice its magnitude.
   */
  function SleepMilliseconds(draw: int, testLoad: int): (r: Result<int>)
    requires 0 <= draw < DrawBound
    requires IsInt32(testLoad)
    ensures r.Failure? <==> testLoad == 0 || testLoad == Int32Min
    ensures r.Failure? ==> r.error == DivideByZero
    ensures r.Success? ==> 1 <= r.value <= Int32Max
    ensures r.Success? && testLoad >= 1 ==> r.value <= 2 * testLoad
    ensures r.Success? ==> r.value <= 2 * Abs(testLoad)
  {
    var modulus := Wrap32(testLoad * 2);
    Wrap32OfDouble(testLoad);
    if modulus == 0 then Failure(DivideByZero)
    else
      CsRemOfNonNegative(draw, modulus);
      Success(Wrap32(CsRem(draw, modulus) + 1))
  }

  /** What a master-fail simulation did: how long it waited and which servers it shut down. */
  datatype MasterFailRun = MasterFailRun(sleep: int, shutDown: seq<Endpoint>)

  /**
   * The delay, then the helper's `SimulateMasterFail`. A zero modulus throws
   * before anything is shut down.
   */
  function SimulateMasterFailAfterDelay(h: Helper, endpoints: seq<Endpoint>, draw: int, testLoad: int)
    : (r: Result<MasterFailRun>)
    requires 0 <= draw < DrawBound
    requires IsInt32(testLoad)
    ensures r.Failure? <==> testLoad == 0 || testLoad == Int32Min
    ensures r.Failure? ==> r.error == DivideByZero
    ensures r.Success? ==> r.value.sleep >= 1
    ensures r.Success? && testLoad >= 1 ==> r.value.sleep <= 2 * testLoad
    ensures r.Success? ==> r.value.sleep <= 2 * Abs(testLoad)
    ensures r.Success? && h.multiplexer.None? ==> r.value.shutDown == []
    ensures r.Success? && h.multiplexer.Some? ==>
              forall e :: e in r.value.shutDown <==> e in endpoints && IsConnectedMaster(e)
  {
    var sleep :- SleepMilliseconds(draw, testLoad);
    Success(MasterFailRun(sleep, SimulateMasterFail(h, endpoints)))
  }
}

=== FILE: results.dfy ===
/**
 * Result records (`Models/TestResults.cs`) and the aggregation steps of
 * `Helpers/TestHelper.cs`: merging one worker's result into the shared
 * aggregate, and averaging the aggregate over the number of workers.
 */
module Results {
  import opened Wrappers
  import opened CsArith

  /** `TestParams`: the four phase timings in milliseconds and the lost-write counter. */
  datatype TestParams = TestParams(
    writeTime: int,
    readTime: int,
    updateTime: int,
    cleanUpTime: int,
    lostWriteCount: int)

  /** `TestResults`: a status line, the load, and one `TestParams` per data type. */
  datatype TestResults = TestResults(
    testStatus: Option<string>,
    testLoad: int,
    stringTest: TestParams,
    listTest: TestParams,
    setTest: TestParams,
    sortedSetTest: TestParams,
    hashTest: TestParams)

  /** `new TestParams()`: every numeric property starts at its default, zero. */
  function NewTestParams(): (p: TestParams)
    ensures p.writeTime == 0 && p.readTime == 0 && p.updateTime == 0 && p.cleanUpTime == 0
    ensures p.lostWriteCount == 0
  {
    TestParams(0, 0, 0, 0, 0)
  }

  /**
   * `new TestResults(testLoad)`: the load is recorded, the status is left null,
   * and each data type gets its own fresh `TestParams`.
   */
  function NewTestResults(testLoad: int): (r: TestResults)
    ensures r.testLoad == testLoad
    ensures r.testStatus.None?
    ensures r.stringTest == NewTestParams() && r.listTest == NewTestParams()
    ensures r.setTest == NewTestParams() && r.sortedSetTest == NewTestParams()
    ensures r.hashTest == NewTestParams()
  {
    var p := NewTestParams();
    TestResults(None, testLoad, p, p, p, p, p)
  }

  /** The four phase timings of a `TestHelper` run. */
  datatype Timings = Timings(write: int, read: int, update: int, cleanUp: int)

  /**
   * What a `TestHelper` run produces: the per-client load, the four timings and
   * the detail lines (the `TestLoadPerThread`, `TestParams` and `TestDetails`
   * members `TestHelper` reads).
   */
  datatype RunResult = RunResult(load: int, timings: Timings, details: seq<string>)

  const ZeroTimings: Timings := Timings(0, 0, 0, 0)

  /** The aggregate a parallel run starts from. */
  function EmptyRun(load: int): RunResult {
    RunResult(load, ZeroTimings, [])
  }

  predicate NonNegative(t: Timings) {
    t.write >= 0 && t.read >= 0 && t.update >= 0 && t.cleanUp >= 0
  }

  function AddTimings(a: Timings, b: Timings): Timings {
    Timings(a.write + b.write, a.read + b.read, a.update + b.update, a.cleanUp + b.cleanUp)
  }

  /**
   * The locked block of `ParralelClientWork`: each timing of the worker is added
   * to the aggregate's, and the worker's detail lines follow the existing ones.
   */
  function Merge(aggregate: RunResult, worker: RunResult): (r: RunResult)
    ensures r.load == aggregate.load
    ensures r.timings.write - aggregate.timings.write == worker.timings.write
    ensures r.timings.read - aggregate.timings.read == worker.timings.read
    ensures r.timings.update - aggregate.timings.update == worker.timings.update
    ensures r.timings.cleanUp - aggregate.timings.cleanUp == worker.timings.cleanUp
    ensures |r.details| == |aggregate.details| + |worker.details|
    ensures r.details[..|aggregate.details|] == aggregate.details
    ensures r.details[|aggregate.details|..] == worker.details
  {
    RunResult(aggregate.load, AddTimings(aggregate.timings, worker.timings), aggregate.details + worker.details)
  }

  /** The workers merged one after another, in the order they took the lock. */
  function MergeAll(aggregate: RunResult, workers: seq<RunResult>): RunResult
    decreases |workers|
  {
    if |workers| == 0 then aggregate else MergeAll(Merge(aggregate, workers[0]), workers[1..])
  }

  /** Reference totals: the timings of all workers added up. */
  function SumTimings(workers: seq<RunResult>): Timings {
    if |workers| == 0 then ZeroTimings else AddTimings(workers[0].timings, SumTimings(workers[1..]))
  }

  /** Reference details: every worker's lines, worker after worker. */
  function ConcatDetails(workers: seq<RunResult>): seq<string> {
    if |workers| == 0 then [] else workers[0].details + ConcatDetails(workers[1..])
  }

  /** Merging in turn adds up all timings and appends all detail lines in merge order. */
  lemma {:induction false} MergeAllSums(aggregate: RunResult, workers: seq<RunResult>)
    ensures MergeAll(aggregate, workers)
            == RunResult(aggregate.load, AddTimings(aggregate.timings, SumTimings(workers)),
                         aggregate.details + ConcatDetails(workers))
    decreases |workers|
  {
    if |workers| > 0 {
      var w, rest := workers[0], workers[1..];
      MergeAllSums(Merge(aggregate, w), rest);
      assert SumTimings(workers) == AddTimings(w.timings, SumTimings(rest));
      assert ConcatDetails(workers) == w.details + ConcatDetails(rest);
      assert (aggregate.details + w.details) + ConcatDetails(rest)
             == aggregate.details + (w.details + ConcatDetails(rest));
    }
  }

  /** Merged timings do not depend on the order in which two workers take the lock. */
  lemma MergeOrderIrrelevantForTimings(aggregate: RunResult, a: RunResult, b: RunResult)
    ensures Merge(Merge(aggregate, a), b).timings == Merge(Merge(aggregate, b), a).timings
  {
  }

  /** `q` is the floor of `a / n`. */
  ghost predicate IsFloorQuotient(q: int, a: int, n: int) {
    q * n <= a < (q + 1) * n
  }

  lemma DivMod(a: int, n: int)
    requires a >= 0 && n >= 1
    ensures a == (a / n) * n + a % n && 0 <= a % n < n && a / n >= 0
  {
  }

  lemma Distribute(q: int, n: int)
    ensures (q + 1) * n == q * n + n
  {
  }

  lemma MulMono(q: nat, n: int)
    requires n >= 1
    ensures q <= q * n
  {
    var k := n - 1;
    assert q * n == q * k + q;
  }

  /** On non-negative operands truncation is the floor, and the quotient does not exceed the dividend. */
  lemma CsDivOfNonNegative(a: int, n: int)
    ensures a >= 0 && n >= 1 ==> 0 <= CsDiv(a, n) <= a && IsFloorQuotient(CsDiv(a, n), a, n)
  {
    if a >= 0 && n >= 1 {
      var q := a / n;
      assert CsDiv(a, n) == q;
      DivMod(a, n);
      Distribute(q, n);
      MulMono(q, n);
    }
  }

  /**
   * `AvrageOutResult`: every timing divided by the client count with truncating
   * division; a count of zero throws before anything is divided.
   */
  function AverageOut(r: RunResult, clients: int): (a: Result<RunResult>)
    ensures a.Failure? <==> clients == 0
    ensures a.Failure? ==> a.error == DivideByZero
    ensures a.Success? ==> a.value.load == r.load && a.value.details == r.details
    ensures a.Success? && clients >= 1 && NonNegative(r.timings) ==>
              && NonNegative(a.value.timings)
              && a.value.timings.write <= r.timings.write
              && a.value.timings.read <= r.timings.read
              && a.value.timings.update <= r.timings.update
              && a.value.timings.cleanUp <= r.timings.cleanUp
              && IsFloorQuotient(a.value.timings.write, r.timings.write, clients)
              && IsFloorQuotient(a.value.timings.read, r.timings.read, clients)
              && IsFloorQuotient(a.value.timings.update, r.timings.update, clients)
              && IsFloorQuotient(a.value.timings.cleanUp, r.timings.cleanUp, clients)
  {
    if clients == 0 then Failure(DivideByZero)
    else
      var t := r.timings;
      CsDivOfNonNegative(t.write, clients);
      CsDivOfNonNegative(t.read, clients);
      CsDivOfNonNegative(t.update, clients);
      CsDivOfNonNegative(t.cleanUp, clients);
      Success(r.(timings := Timings(CsDiv(t.write, clients), CsDiv(t.read, clients),
                                    CsDiv(t.update, clients), CsDiv(t.cleanUp, clients))))
  }

  function ScaleTimings(n: nat, t: Timings): Timings {
    Timings(n * t.write, n * t.read, n * t.update, n * t.cleanUp)
  }

  lemma {:induction false} SumOfEqualTimings(workers: seq<RunResult>, t: Timings)
    requires forall k :: 0 <= k < |workers| ==> workers[k].timings == t
    ensures SumTimings(workers) == ScaleTimings(|workers|, t)
  {
    if |workers| > 0 {
      SumOfEqualTimings(workers[1..], t);
    }
  }

  lemma CsDivCancels(x: int, n: int)
    requires x >= 0 && n >= 1
    ensures CsDiv(n * x, n) == x
  {
    NonNegativeProduct(n, x);
    assert (n * x) / n == x;
  }

  /** Averaging N times the same non-negative timings over N gives those timings back. */
  lemma AverageOfScaled(r: RunResult, n: int, t: Timings)
    requires n >= 1 && NonNegative(t)
    requires r.timings == ScaleTimings(n, t)
    ensures AverageOut(r, n) == Success(r.(timings := t))
  {
    CsDivCancels(t.write, n);
    CsDivCancels(t.read, n);
    CsDivCancels(t.update, n);
    CsDivCancels(t.cleanUp, n);
  }

  /**
   * N workers that each report the same non-negative timings: merging all of them
   * into a fresh aggregate and averaging over N gives those timings back, with
   * every worker's detail lines kept.
   */
  lemma AverageOfEqualWorkers(load: int, workers: seq<RunResult>, t: Timings)
    requires |workers| >= 1
    requires NonNegative(t)
    requires forall k :: 0 <= k < |workers| ==> workers[k].timings == t
    ensures AverageOut(MergeAll(EmptyRun(load), workers), |workers|)
            == Success(RunResult(load, t, ConcatDetails(workers)))
  {
    MergeEqualWorkers(load, workers, t);
    AverageOfScaled(MergeAll(EmptyRun(load), workers), |workers|, t);
  }

  /** Merging N workers with the same timings into a fresh aggregate gives N times those timings. */
  lemma MergeEqualWorkers(load: int, workers: seq<RunResult>, t: Timings)
    requires forall k :: 0 <= k < |workers| ==> workers[k].timings == t
    ensures MergeAll(EmptyRun(load), workers) == RunResult(load, ScaleTimings(|workers|, t), ConcatDetails(workers))
  {
    MergeAllSums(EmptyRun(load), workers);
    SumOfEqualTimings(workers, t);
    assert [] + ConcatDetails(workers) == ConcatDetails(workers);
  }
}

=== FILE: sentinel_workload.dfy ===
/**
 * `SentinelHelper.BasicStringTest` and `SentinelHelper.BasicListTest`: the
 * uncaught variants of the workload that fill one `TestParams` record of a
 * `TestResults`.
 *
 * The string test writes `key_1 .. key_<load>` with `i`, reads them back and
 * counts the reads that come back empty, rewrites them with `10 * i` and
 * deletes them. The list test left-pushes `1 .. load` onto one list and then
 * left-pops `load` times, counting the pops that find the list empty.
 *
 * Stopwatch readings are inputs. Between the write and the read phase another
 * client (a master fail-over, say) may drop keys; which keys are dropped is an
 * input too, and so is the list the pops of the list test find.
 */
module SentinelWorkload {
  import opened Text
  import opened Keys
  import opened Results

  /** The prefix of the string test's keys. */
  const StringKeyPrefix: string := "key_"

  /** `StringSet(prefix + i, scale * i)` for `i` from 1 to `n`, in that order. */
  function SetEach(st: Store, prefix: string, n: int, scale: int): (r: Store)
    ensures forall i :: 1 <= i <= n ==> Key(prefix, i) in r && r[Key(prefix, i)] == scale * i
    ensures AgreeOutside(st, r, KeyRange(prefix, n))
    decreases n
  {
    if n < 1 then
      KeyRangeEmpty(prefix, n);
      st
    else
      var before := SetEach(st, prefix, n - 1, scale);
      KeyRangeStep(prefix, n);
      assert forall i :: 1 <= i < n ==> Key(prefix, i) != Key(prefix, n) by {
        forall i | 1 <= i < n {
          KeyInjective(prefix, i, n);
        }
      }
      before[Key(prefix, n) := scale * n]
  }

  /** `KeyDelete(prefix + i)` for `i` from 1 to `n`. */
  function DeleteEach(st: Store, prefix: string, n: int): (r: Store)
    ensures r == st - KeyRange(prefix, n)
    decreases n
  {
    if n < 1 then
      KeyRangeEmpty(prefix, n);
      st
    else
      KeyRangeStep(prefix, n);
      DeleteEach(st, prefix, n - 1) - {Key(prefix, n)}
  }

  /**
   * The read loop's count: how many of `GET prefix+1 .. GET prefix+n` come back
   * empty. A stored integer is never an empty value, so a read is empty exactly
   * when its key is absent.
   */
  function CountMissing(st: Store, prefix: string, n: int): (r: nat)
    ensures r <= if n >= 1 then n else 0
    ensures r == 0 <==> forall i :: 1 <= i <= n ==> Key(prefix, i) in st
    decreases n
  {
    if n < 1 then 0
    else CountMissing(st, prefix, n - 1) + (if Key(prefix, n) in st then 0 else 1)
  }

  /** Extending the range by one key adds that key to the dropped part exactly when it was dropped. */
  lemma DroppedInRangeStep(dropped: set<string>, prefix: string, n: int)
    requires n >= 1
    ensures |dropped * KeyRange(prefix, n)|
            == |dropped * KeyRange(prefix, n - 1)| + (if Key(prefix, n) in dropped then 1 else 0)
  {
    KeyRangeStep(prefix, n);
    KeyInRange(prefix, n, n - 1);
    var k := Key(prefix, n);
    var older := dropped * KeyRange(prefix, n - 1);
    if k in dropped {
      assert dropped * KeyRange(prefix, n) == older + {k};
    } else {
      assert dropped * KeyRange(prefix, n) == older;
    }
  }

  /**
   * After every key of the range was written, the reads that come back empty are
   * exactly those of the range's keys that were dropped in between.
   */
  lemma {:induction false} MissingAreTheDropped(st: Store, dropped: set<string>, prefix: string, n: int)
    requires forall i :: 1 <= i <= n ==> Key(prefix, i) in st
    ensures CountMissing(st - dropped, prefix, n) == |dropped * KeyRange(prefix, n)|
    decreases n
  {
    if n < 1 {
      KeyRangeEmpty(prefix, n);
      assert dropped * KeyRange(prefix, n) == {};
    } else {
      MissingAreTheDropped(st, dropped, prefix, n - 1);
      DroppedInRangeStep(dropped, prefix, n);
      assert Key(prefix, n) in st;
    }
  }

  /** The stores between the phases of one string test, and the updated results. */
  datatype StringTestRun = StringTestRun(
    results: TestResults,
    written: Store,
    read: Store,
    updated: Store,
    store: Store)

  /**
   * The string test on results `t` and store `st`; `dropped` is lost between the
   * write and the read phase, `ms` holds the four stopwatch readings.
   */
  function BasicStringTest(t: TestResults, st: Store, dropped: set<string>, ms: Timings): (r: StringTestRun)
    ensures forall i :: 1 <= i <= t.testLoad ==>
              Key(StringKeyPrefix, i) in r.written && r.written[Key(StringKeyPrefix, i)] == i
    ensures r.read == r.written - dropped
    ensures forall i :: 1 <= i <= t.testLoad ==>
              Key(StringKeyPrefix, i) in r.updated && r.updated[Key(StringKeyPrefix, i)] == 10 * i
    ensures r.store == r.updated - KeyRange(StringKeyPrefix, t.testLoad)
    ensures forall i :: 1 <= i <= t.testLoad ==> Key(StringKeyPrefix, i) !in r.store
    ensures AgreeOutside(st - dropped, r.store, KeyRange(StringKeyPrefix, t.testLoad))
    ensures r.results.stringTest.writeTime == ms.write
    ensures r.results.stringTest.readTime == ms.read
    ensures r.results.stringTest.updateTime == ms.update
    ensures r.results.stringTest.cleanUpTime == ms.cleanUp
    ensures r.results.stringTest.lostWriteCount
            == t.stringTest.lostWriteCount + |dropped * KeyRange(StringKeyPrefix, t.testLoad)|
    ensures r.results.(stringTest := t.stringTest) == t
  {
    var n := t.testLoad;
    var written := SetEach(st, StringKeyPrefix, n, 1);
    var read := written - dropped;
    var lost := CountMissing(read, StringKeyPrefix, n);
    MissingAreTheDropped(written, dropped, StringKeyPrefix, n);
    var updated := SetEach(read, StringKeyPrefix, n, 10);
    var cleared := DeleteEach(updated, StringKeyPrefix, n);
    var results := t.(stringTest := TestParams(ms.write, ms.read, ms.update, ms.cleanUp,
                                               t.stringTest.lostWriteCount + lost));
    StringTestRun(results, written, read, updated, cleared)
  }

  /** With nothing dropped between the phases, no write is counted as lost. */
  lemma NoDropsNoLostWrites(t: TestResults, st: Store, ms: Timings)
    ensures BasicStringTest(t, st, {}, ms).results.stringTest.lostWriteCount == t.stringTest.lostWriteCount
  {
    assert {} * KeyRange(StringKeyPrefix, t.testLoad) == {};
  }

  /** The values `n, n - 1, .., 1`: newest first, as successive left-pushes of `1 .. n` stack them. */
  function CountDown(n: int): (d: seq<int>)
    ensures |d| == if n >= 1 then n else 0
    ensures forall k :: 0 <= k < |d| ==> d[k] == n - k
    decreases n
  {
    if n < 1 then [] else [n] + CountDown(n - 1)
  }

  /** `ListLeftPush(i)` for `i` from 1 to `n`: the last value pushed is at the head. */
  function PushAll(l: seq<int>, n: int): (r: seq<int>)
    ensures r == CountDown(n) + l
    decreases n
  {
    if n < 1 then l
    else
      assert [n] + (CountDown(n - 1) + l) == ([n] + CountDown(n - 1)) + l;
      [n] + PushAll(l, n - 1)
  }

  /** What `n` left-pops leave behind, what they returned, and how many found the list empty. */
  datatype PopOutcome = PopOutcome(rest: seq<int>, popped: seq<int>, lost: nat)

  function Min(a: int, b: int): int {
    if a < b then a else b
  }

  /** `ListLeftPop` `n` times: a pop on an empty list returns null and counts as lost. */
  function PopAll(l: seq<int>, n: int): (r: PopOutcome)
    ensures var taken := Min(if n >= 1 then n else 0, |l|);
            && r.popped == l[..taken]
            && r.rest == l[taken..]
            && r.lost == (if n >= 1 then n else 0) - taken
    decreases n
  {
    if n < 1 then PopOutcome(l, [], 0)
    else if |l| == 0 then
      var after := PopAll(l, n - 1);
      after.(lost := after.lost + 1)
    else
      var after := PopAll(l[1..], n - 1);
      PopOutcome(after.rest, [l[0]] + after.popped, after.lost)
  }

  /** The list the pushes built, the list the pops leave, and the updated results. */
  datatype ListTestRun = ListTestRun(results: TestResults, pushed: seq<int>, list: seq<int>)

  /**
   * The list test on results `t` and list `l`. The pushes stack `load` values on
   * `l`; the pops then act on `mid`, the list as they find it, which a fail-over
   * or another client may have changed since. Each pop that finds `mid` empty is
   * counted as a lost write.
   */
  function BasicListTest(t: TestResults, l: seq<int>, mid: seq<int>, writeMs: int, readMs: int)
    : (r: ListTestRun)
    ensures r.pushed == CountDown(t.testLoad) + l
    ensures var pops := if t.testLoad >= 1 then t.testLoad else 0;
            && r.list == mid[Min(pops, |mid|)..]
            && r.results.listTest.lostWriteCount
               == t.listTest.lostWriteCount + (if pops > |mid| then pops - |mid| else 0)
    ensures r.results.listTest.writeTime == writeMs
    ensures r.results.listTest.readTime == readMs
    ensures r.results.listTest.updateTime == t.listTest.updateTime
    ensures r.results.listTest.cleanUpTime == t.listTest.cleanUpTime
    ensures r.results.(listTest := t.listTest) == t
  {
    var pushed := PushAll(l, t.testLoad);
    var popped := PopAll(mid, t.testLoad);
    var p := t.listTest;
    var results := t.(listTest := p.(writeTime := writeMs, readTime := readMs,
                                     lostWriteCount := p.lostWriteCount + popped.lost));
    ListTestRun(results, pushed, popped.rest)
  }

  /**
   * When nothing touches the list between the phases, pops are last-in first-out:
   * the `load` pops take back exactly the values just pushed, the list ends as it
   * began and no write is counted as lost.
   */
  lemma UndisturbedListTest(t: TestResults, l: seq<int>, writeMs: int, readMs: int)
    ensures var r := BasicListTest(t, l, PushAll(l, t.testLoad), writeMs, readMs);
            && r.list == l
            && r.results.listTest.lostWriteCount == t.listTest.lostWriteCount
  {
  }

  /** The pops return the pushed values in reverse order of pushing. */
  lemma PopsReturnPushesReversed(l: seq<int>, n: int)
    requires n >= 1
    ensures |PopAll(PushAll(l, n), n).popped| == n
    ensures forall k :: 0 <= k < n ==> PopAll(PushAll(l, n), n).popped[k] == n - k
  {
  }
}

=== FILE: shared_connection.dfy ===
/**
 * The static `ConfigurationHelper` of `Helpers/ConfigurationHelper.cs`: one
 * process-wide multiplexer, built on first use from the older sentinel
 * configuration and returned unchanged on every later call.
 */
module SharedConnection {
  import opened Wrappers
  import opened Text
  import opened Config
  import opened Connection

  /** The static fields: the cached multiplexer and the count of handles issued so far. */
  datatype SharedState = SharedState(multiplexer: Option<Handle>, issued: nat)

  /** The state after a call, and the handle returned or the exception thrown. */
  datatype SharedStep = SharedStep(state: SharedState, result: Result<Handle>)

  /** Only the data-plane addresses, then the password, with no trailing comma. */
  function SentinelConnectionString(c: LegacySentinelConfig): (r: Result<string>)
    ensures r.Failure? <==> c.redisAddresses.None?
  {
    if c.redisAddresses.None? then Failure(NullReference)
    else Success(AddressSegments(c.redisAddresses.value) + "password=" + Render(c.password))
  }

  /**
   * Read back at its commas, the string lists each data-plane address as
   * `IP:Port` in order and ends with the password field: no monitor address,
   * timeout or admin switch, and no empty field after the password.
   */
  lemma SentinelConnectionStringFields(c: LegacySentinelConfig)
    requires c.redisAddresses.Some?
    requires NoCommaInIps(c.redisAddresses.value)
    requires ',' !in Render(c.password)
    ensures SentinelConnectionString(c).Success?
    ensures Split(SentinelConnectionString(c).value, ',')
            == AddressFields(c.redisAddresses.value) + ["password=" + Render(c.password)]
  {
    var pw := "password=" + Render(c.password);
    assert ',' !in pw;
    assert SentinelConnectionString(c).value == AddressSegments(c.redisAddresses.value) + pw;
    SplitAddressSegments(c.redisAddresses.value, pw);
  }

  /** Monitor addresses never reach the connection string. */
  lemma SentinelConnectionStringIgnoresMonitors(c: LegacySentinelConfig, monitors: Option<seq<Address>>)
    ensures SentinelConnectionString(c.(sentinelAddresses := monitors)) == SentinelConnectionString(c)
  {
  }

  /**
   * `GetSentinelRDBConnection`: the cached multiplexer whatever the argument;
   * otherwise one is opened from the argument and cached. A null argument, or a
   * null address list, throws before anything is cached.
   */
  function GetSentinelRDBConnection(s: SharedState, config: Option<LegacySentinelConfig>): (r: SharedStep)
    ensures s.multiplexer.Some? ==> r == SharedStep(s, Success(s.multiplexer.value))
    ensures s.multiplexer.None? ==>
              (r.result.Success? <==> config.Some? && config.value.redisAddresses.Some?)
    ensures r.result.Failure? ==> r.state == s && r.result.error == NullReference
    ensures s.multiplexer.None? && r.result.Success? ==>
              && r.result.value.id == s.issued
              && r.result.value.connectionString == SentinelConnectionString(config.value).value
              && r.state == SharedState(Some(r.result.value), s.issued + 1)
  {
    if s.multiplexer.Some? then SharedStep(s, Success(s.multiplexer.value))
    else if config.None? then SharedStep(s, Failure(NullReference))
    else
      match SentinelConnectionString(config.value)
      case Failure(e) => SharedStep(s, Failure(e))
      case Success(cs) =>
        var m := Connect(cs, s.issued);
        SharedStep(SharedState(Some(m), s.issued + 1), Success(m))
  }

  /** Once a call has succeeded, every later call returns that handle, whatever it is given. */
  lemma CachedOnce(s: SharedState, first: Option<LegacySentinelConfig>, later: Option<LegacySentinelConfig>)
    requires GetSentinelRDBConnection(s, first).result.Success?
    ensures var step := GetSentinelRDBConnection(s, first);
            GetSentinelRDBConnection(step.state, later) == step
  {
  }
}

=== FILE: text.dfy ===
/**
 * Decimal rendering of integers (C#'s `ToString()` and `String.Format("{0}", n)`
 * on `int`/`long`) and splitting a string at a separator, with the facts the
 * rest of the model needs: rendering is injective and never produces a comma.
 */
module Text {

  predicate IsDigit(c: char) {
    '0' <= c <= '9'
  }

  predicate AllDigits(s: string) {
    forall k :: 0 <= k < |s| ==> IsDigit(s[k])
  }

  function DigitChar(d: nat): (c: char)
    requires d < 10
    ensures IsDigit(c)
  {
    ('0' as int + d) as char
  }

  function DigitValue(c: char): (d: nat)
    requires IsDigit(c)
    ensures d < 10
  {
    c as int - '0' as int
  }

  /** Decimal digits of `n`, most significant first, without leading zeros. */
  function NatToString(n: nat): (s: string)
    ensures |s| >= 1
    ensures AllDigits(s)
  {
    if n < 10 then [DigitChar(n)] else NatToString(n / 10) + [DigitChar(n % 10)]
  }

  /** Decimal rendering of a signed integer: a minus sign in front of negative values. */
  function IntToString(i: int): (s: string)
    ensures |s| >= 1
    ensures forall k :: 0 <= k < |s| ==> IsDigit(s[k]) || s[k] == '-'
    ensures ',' !in s
  {
    if i < 0 then "-" + NatToString(-i) else NatToString(i)
  }

  /** Reads a string of decimal digits back as a number (the partner of `NatToString`). */
  function ParseDigits(s: string): nat
    requires AllDigits(s)
  {
    if |s| == 0 then 0 else ParseDigits(s[..|s| - 1]) * 10 + DigitValue(s[|s| - 1])
  }

  /** Reads a rendering produced by `IntToString` back as a signed number. */
  function ParseInt(s: string): int
    requires |s| >= 1
    requires s[0] == '-' ==> AllDigits(s[1..])
    requires s[0] != '-' ==> AllDigits(s)
  {
    if s[0] == '-' then 0 - ParseDigits(s[1..]) else ParseDigits(s)
  }

  lemma {:induction false} NatToStringRoundTrip(n: nat)
    ensures ParseDigits(NatToString(n)) == n
  {
    if n >= 10 {
      var s := NatToString(n);
      assert s[..|s| - 1] == NatToString(n / 10);
      NatToStringRoundTrip(n / 10);
    }
  }

  lemma IntToStringRoundTrip(i: int)
    ensures ParseInt(IntToString(i)) == i
  {
    var s := IntToString(i);
    if i < 0 {
      assert s[1..] == NatToString(-i);
      NatToStringRoundTrip(-i);
    } else {
      NatToStringRoundTrip(i);
    }
  }

  /** Distinct numbers render as distinct strings. */
  lemma IntToStringInjective(a: int, b: int)
    ensures IntToString(a) == IntToString(b) ==> a == b
  {
    IntToStringRoundTrip(a);
    IntToStringRoundTrip(b);
  }

  /** Position of the first occurrence of `c` in `s`. */
  function IndexOf(s: string, c: char): (i: nat)
    requires c in s
    ensures i < |s| && s[i] == c
    ensures c !in s[..i]
  {
    if s[0] == c then 0
    else
      var i := 1 + IndexOf(s[1..], c);
      assert s[..i] == [s[0]] + s[1..][..i - 1];
      i
  }

  /** The pieces of `s` between occurrences of `sep`, as `String.Split(sep)` returns them. */
  function Split(s: string, sep: char): (parts: seq<string>)
    ensures |parts| >= 1
    decreases |s|
  {
    if sep !in s then [s]
    else
      var i := IndexOf(s, sep);
      [s[..i]] + Split(s[i + 1..], sep)
  }

  /** Splitting `a + sep + b`, where `a` holds no separator, yields `a` and then the pieces of `b`. */
  lemma SplitAtFirst(a: string, sep: char, b: string)
    requires sep !in a
    ensures Split(a + [sep] + b, sep) == [a] + Split(b, sep)
  {
    var s := a + [sep] + b;
    assert s[|a|] == sep;
    var i := IndexOf(s, sep);
    assert s[..i] == a;
    assert s[i + 1..] == b;
  }

  /** Every field followed by `sep`, as a loop of `Append(field + sep)` builds it. */
  function Terminated(fields: seq<string>, sep: char): string {
    if |fields| == 0 then "" else fields[0] + [sep] + Terminated(fields[1..], sep)
  }

  /** Splitting a run of terminated fields gives the fields back, then the pieces of what follows. */
  lemma {:induction false} SplitTerminated(fields: seq<string>, sep: char, rest: string)
    requires forall k :: 0 <= k < |fields| ==> sep !in fields[k]
    ensures Split(Terminated(fields, sep) + rest, sep) == fields + Split(rest, sep)
  {
    if |fields| == 0 {
      assert Terminated(fields, sep) + rest == rest;
      assert fields + Split(rest, sep) == Split(rest, sep);
    } else {
      var first, others := fields[0], fields[1..];
      var tail := Terminated(others, sep) + rest;
      TerminatedUnfold(fields, sep, rest);
      SplitAtFirst(first, sep, tail);
      SplitTerminated(others, sep, rest);
      ConsAssoc(first, others, Split(rest, sep));
    }
  }

  /** How many times `sep` occurs in `s`. */
  function CountSep(s: string, sep: char): (n: nat)
    ensures n == 0 <==> sep !in s
    ensures n <= |s|
  {
    if |s| == 0 then 0
    else
      assert s == [s[0]] + s[1..];
      (if s[0] == sep then 1 else 0) + CountSep(s[1..], sep)
  }

  lemma {:induction false} CountSepAppend(a: string, b: string, sep: char)
    ensures CountSep(a + b, sep) == CountSep(a, sep) + CountSep(b, sep)
    decreases |a|
  {
    if |a| == 0 {
      assert a + b == b;
    } else {
      assert (a + b)[0] == a[0];
      assert (a + b)[1..] == a[1..] + b;
      CountSepAppend(a[1..], b, sep);
    }
  }

  /** Joining two strings with a separator adds exactly that one separator. */
  lemma CountSepJoin(a: string, sep: char, b: string)
    ensures CountSep(a + [sep] + b, sep) == CountSep(a, sep) + 1 + CountSep(b, sep)
  {
    CountSepAppend(a, [sep] + b, sep);
    CountSepAppend([sep], b, sep);
    assert a + [sep] + b == a + ([sep] + b);
    assert [sep][1..] == [];
  }

  /** `Split` yields one piece more than there are separators. */
  lemma {:induction false} SplitCount(s: string, sep: char)
    ensures |Split(s, sep)| == CountSep(s, sep) + 1
    decreases |s|
  {
    if sep in s {
      var i := IndexOf(s, sep);
      assert s == s[..i] + ([sep] + s[i + 1..]);
      CountSepAppend(s[..i], [sep] + s[i + 1..], sep);
      CountSepAppend([sep], s[i + 1..], sep);
      assert CountSep([sep], sep) == 1 by {
        assert [sep][1..] == [];
      }
      SplitCount(s[i + 1..], sep);
    }
  }

  /** The separators inside all the fields together. */
  function SumSep(fields: seq<string>, sep: char): (n: nat)
    ensures n == 0 <==> forall k :: 0 <= k < |fields| ==> sep !in fields[k]
  {
    if |fields| == 0 then 0
    else
      assert forall k :: 0 < k < |fields| ==> fields[k] == fields[1..][k - 1];
      CountSep(fields[0], sep) + SumSep(fields[1..], sep)
  }

  /** A terminated run holds one separator per field plus those inside the fields. */
  lemma {:induction false} CountSepTerminated(fields: seq<string>, sep: char)
    ensures CountSep(Terminated(fields, sep), sep) == |fields| + SumSep(fields, sep)
  {
    if |fields| > 0 {
      var tail := Terminated(fields[1..], sep);
      assert Terminated(fields, sep) == fields[0] + ([sep] + tail);
      CountSepAppend(fields[0], [sep] + tail, sep);
      CountSepAppend([sep], tail, sep);
      assert CountSep([sep], sep) == 1 by {
        assert [sep][1..] == [];
      }
      CountSepTerminated(fields[1..], sep);
    }
  }

  lemma TerminatedUnfold(fields: seq<string>, sep: char, rest: string)
    requires |fields| > 0
    requires forall k :: 0 <= k < |fields| ==> sep !in fields[k]
    ensures Terminated(fields, sep) + rest == fields[0] + [sep] + (Terminated(fields[1..], sep) + rest)
    ensures fields == [fields[0]] + fields[1..]
    ensures sep !in fields[0]
    ensures forall k :: 0 <= k < |fields[1..]| ==> sep !in fields[1..][k]
  {
  }

  lemma ConsAssoc(first: string, others: seq<string>, more: seq<string>)
    ensures [first] + (others + more) == ([first] + others) + more
  {
  }
}

=== FILE: workload.dfy ===
/**
 * `TestHelper.BasicStringTest` and `TestHelper.ParralelClientWork`: four timed
 * phases over the keys `thread:<id>:key:1 .. thread:<id>:key:<load>`.
 *
 * Every store operation may lose the connection. Which iterations do is an
 * input (a set of failing indices per phase). A failing iteration changes
 * nothing in the store, reconnects through the shared helper and moves on to
 * the next index: it is never retried. Only a reconnect that itself throws ends
 * the run. Stopwatch readings, the thread id and the random increment/decrement
 * choices are inputs too.
 */
module Workload {
  import opened Wrappers
  import opened Text
  import opened Keys
  import opened Connection
  import opened Results

  datatype Phase = WritePhase | ReadPhase | UpdatePhase | RemovePhase

  /** The iterations, per phase, at which the store operation loses the connection. */
  datatype FailureOracle = FailureOracle(write: set<int>, read: set<int>, update: set<int>, remove: set<int>)

  /** A worker's view: the store, the shared helper, its current handle, and reconnects so far. */
  datatype Session = Session(store: Store, helper: Helper, db: Handle, reconnects: nat)

  /** A finished run: the worker's result and the session after its last phase. */
  datatype Outcome = Outcome(result: RunResult, session: Session)

  /** `"thread:" + ManagedThreadId + ":key:"`. */
  function KeyPrefix(threadId: int): string {
    "thread:" + IntToString(threadId) + ":key:"
  }

  /** How many of the iterations `1..n` fail. */
  function FailureCount(fails: set<int>, n: int): nat {
    if n <= 0 then 0 else FailureCount(fails, n - 1) + (if n in fails then 1 else 0)
  }

  lemma {:induction false} FailureCountPositive(fails: set<int>, i: int, n: int)
    requires 1 <= i <= n && i in fails
    ensures FailureCount(fails, n) > 0
  {
    if i < n {
      FailureCountPositive(fails, i, n - 1);
    }
  }

  lemma {:induction false} FailureCountZero(fails: set<int>, n: int)
    ensures FailureCount(fails, n) == 0 <==> forall i :: 1 <= i <= n ==> i !in fails
  {
    if n > 0 {
      FailureCountZero(fails, n - 1);
      if FailureCount(fails, n) == 0 {
        forall i | 1 <= i <= n
          ensures i !in fails
        {
          if i < n {
            assert FailureCount(fails, n - 1) == 0;
          }
        }
      }
    }
  }

  /** A missing key counts as zero for `INCRBY`/`DECRBY`. */
  function ValueOrZero(st: Store, k: string): int {
    if k in st then st[k] else 0
  }

  /** `i % 10` up when the random draw was even, down otherwise. */
  function UpdateDelta(i: int, increments: set<int>): int {
    if i in increments then i % 10 else -(i % 10)
  }

  /** The one store operation of iteration `i` in phase `p`. */
  function Operation(p: Phase, st: Store, prefix: string, i: int, increments: set<int>): Store {
    var k := Key(prefix, i);
    match p
    case WritePhase => st[k := i]
    case ReadPhase => st
    case UpdatePhase => st[k := ValueOrZero(st, k) + UpdateDelta(i, increments)]
    case RemovePhase => st - {k}
  }

  /** What a completed iteration `i` of phase `p` leaves at its key, relative to the store before the phase. */
  ghost predicate Effect(p: Phase, before: Store, after: Store, prefix: string, i: int, increments: set<int>) {
    var k := Key(prefix, i);
    match p
    case WritePhase => k in after && after[k] == i
    case ReadPhase => AgreeAt(before, after, k)
    case UpdatePhase => k in after && after[k] == ValueOrZero(before, k) + UpdateDelta(i, increments)
    case RemovePhase => k !in after
  }

  lemma OperationEffect(p: Phase, before: Store, st: Store, prefix: string, i: int, increments: set<int>)
    requires AgreeAt(before, st, Key(prefix, i))
    ensures Effect(p, before, Operation(p, st, prefix, i, increments), prefix, i, increments)
    ensures forall k :: k != Key(prefix, i) ==> AgreeAt(st, Operation(p, st, prefix, i, increments), k)
  {
  }

  lemma EffectFrame(p: Phase, before: Store, a: Store, b: Store, prefix: string, i: int, increments: set<int>)
    requires Effect(p, before, a, prefix, i, increments)
    requires AgreeAt(a, b, Key(prefix, i))
    ensures Effect(p, before, b, prefix, i, increments)
  {
  }

  /** The recovery action of every `catch` block: `Reconnect()` with no argument. */
  function Recover(s: Session): (r: Result<Session>)
    ensures r.Success? <==> CanConnect(s.helper)
    ensures r.Success? ==>
              && r.value.store == s.store
              && r.value.reconnects == s.reconnects + 1
              && r.value.helper.multiplexer == Some(r.value.db)
              && r.value.helper.rdbConfiguration == s.helper.rdbConfiguration
              && r.value.db.id == s.helper.issued
  {
    var step := Reconnect(s.helper, None);
    if step.result.Failure? then Failure(step.result.error)
    else Success(Session(s.store, step.helper, step.result.value, s.reconnects + 1))
  }

  /**
   * The store after iterations `1..m` of phase `p`, compared with the store before
   * the phase: each completed iteration had its effect, each failed one left its
   * key alone, and nothing outside the keys visited so far changed.
   */
  ghost predicate PhaseSoFar(p: Phase, before: Store, cur: Store, prefix: string, m: int,
                             fails: set<int>, increments: set<int>) {
    && (forall j :: 1 <= j <= m && j !in fails ==> Effect(p, before, cur, prefix, j, increments))
    && (forall j :: 1 <= j <= m && j in fails ==> AgreeAt(before, cur, Key(prefix, j)))
    && AgreeOutside(before, cur, KeyRange(prefix, m))
  }

  /** Iteration `i` fails: the store is unchanged and the phase so far extends to `i`. */
  lemma PhaseSoFarSkip(p: Phase, before: Store, cur: Store, prefix: string, i: int,
                       fails: set<int>, increments: set<int>)
    requires i >= 1 && i in fails
    requires PhaseSoFar(p, before, cur, prefix, i - 1, fails, increments)
    ensures PhaseSoFar(p, before, cur, prefix, i, fails, increments)
  {
    KeyRangeStep(prefix, i);
    KeyInRange(prefix, i, i - 1);
  }

  /** Iteration `i` completes: its operation extends the phase so far to `i`. */
  lemma PhaseSoFarOperation(p: Phase, before: Store, cur: Store, prefix: string, i: int,
                            fails: set<int>, increments: set<int>)
    requires i >= 1 && i !in fails
    requires PhaseSoFar(p, before, cur, prefix, i - 1, fails, increments)
    ensures PhaseSoFar(p, before, Operation(p, cur, prefix, i, increments), prefix, i, fails, increments)
  {
    var next := Operation(p, cur, prefix, i, increments);
    KeyRangeStep(prefix, i);
    KeyInRange(prefix, i, i - 1);
    OperationEffect(p, before, cur, prefix, i, increments);
    forall j | 1 <= j < i
      ensures AgreeAt(cur, next, Key(prefix, j))
    {
      KeyInjective(prefix, i, j);
    }
    forall j | 1 <= j < i && j !in fails
      ensures Effect(p, before, next, prefix, j, increments)
    {
      EffectFrame(p, before, cur, next, prefix, j, increments);
    }
  }

  /**
   * One phase: iterations `1..n` in order. A failing iteration reconnects and is
   * skipped; the phase ends early only when that reconnect throws.
   */
  method RunPhase(p: Phase, s: Session, prefix: string, n: int, fails: set<int>, increments: set<int>)
    returns (r: Result<Session>)
    ensures r.Success? <==> CanConnect(s.helper) || FailureCount(fails, n) == 0
    ensures r.Success? ==> r.value.reconnects == s.reconnects + FailureCount(fails, n)
    ensures r.Success? ==> r.value.helper.rdbConfiguration == s.helper.rdbConfiguration
    ensures r.Success? && FailureCount(fails, n) == 0 ==> r.value.helper == s.helper && r.value.db == s.db
    ensures r.Success? && FailureCount(fails, n) > 0 ==> r.value.helper.multiplexer == Some(r.value.db)
    ensures r.Success? ==> forall i :: 1 <= i <= n && i !in fails ==>
              Effect(p, s.store, r.value.store, prefix, i, increments)
    ensures r.Success? ==> forall i :: 1 <= i <= n && i in fails ==>
              AgreeAt(s.store, r.value.store, Key(prefix, i))
    ensures r.Success? ==> AgreeOutside(s.store, r.value.store, KeyRange(prefix, n))
  {
    var cur := s;
    var i := 1;
    KeyRangeEmpty(prefix, 0);
    while i <= n
      invariant 1 <= i <= (if n >= 1 then n else 0) + 1
      invariant cur.reconnects == s.reconnects + FailureCount(fails, i - 1)
      invariant cur.helper.rdbConfiguration == s.helper.rdbConfiguration
      invariant FailureCount(fails, i - 1) == 0 ==> cur.helper == s.helper && cur.db == s.db
      invariant FailureCount(fails, i - 1) > 0 ==> cur.helper.multiplexer == Some(cur.db) && CanConnect(s.helper)
      invariant PhaseSoFar(p, s.store, cur.store, prefix, i - 1, fails, increments)
    {
      if i in fails {
        var rec := Recover(cur);
        if rec.Failure? {
          FailureCountPositive(fails, i, n);
          return Failure(rec.error);
        }
        PhaseSoFarSkip(p, s.store, cur.store, prefix, i, fails, increments);
        cur := rec.value;
      } else {
        PhaseSoFarOperation(p, s.store, cur.store, prefix, i, fails, increments);
        cur := cur.(store := Operation(p, cur.store, prefix, i, increments));
      }
      i := i + 1;
    }
    if n < 1 {
      KeyRangeEmpty(prefix, n);
    }
    return Success(cur);
  }

  /** What every phase guarantees whatever its operation: bookkeeping, skipped keys, untouched keys. */
  ghost predicate Completed(s: Session, t: Session, prefix: string, n: int, fails: set<int>) {
    && t.reconnects == s.reconnects + FailureCount(fails, n)
    && t.helper.rdbConfiguration == s.helper.rdbConfiguration
    && (forall i :: 1 <= i <= n && i in fails ==> AgreeAt(s.store, t.store, Key(prefix, i)))
    && AgreeOutside(s.store, t.store, KeyRange(prefix, n))
  }

  /** Write phase: `SET prefix+i i` for every iteration that keeps its connection. */
  method WriteKeys(s: Session, prefix: string, n: int, fails: set<int>) returns (r: Result<Session>)
    ensures r.Success? <==> CanConnect(s.helper) || FailureCount(fails, n) == 0
    ensures r.Success? ==> Completed(s, r.value, prefix, n, fails)
    ensures r.Success? ==> forall i :: 1 <= i <= n && i !in fails ==>
              Key(prefix, i) in r.value.store && r.value.store[Key(prefix, i)] == i
  {
    r := RunPhase(WritePhase, s, prefix, n, fails, {});
  }

  /** Read phase: `GET prefix+i` on a replica; the value is discarded and the store is unchanged. */
  method ReadKeys(s: Session, prefix: string, n: int, fails: set<int>) returns (r: Result<Session>)
    ensures r.Success? <==> CanConnect(s.helper) || FailureCount(fails, n) == 0
    ensures r.Success? ==> Completed(s, r.value, prefix, n, fails)
    ensures r.Success? ==> r.value.store == s.store
  {
    r := RunPhase(ReadPhase, s, prefix, n, fails, {});
    if r.Success? {
      forall k
        ensures AgreeAt(s.store, r.value.store, k)
      {
        if k in KeyRange(prefix, n) {
          var i :| 1 <= i <= n && Key(prefix, i) == k;
        }
      }
      AgreeEverywhere(s.store, r.value.store);
    }
  }

  /**
   * Update phase: `INCRBY` or `DECRBY` of `prefix+i` by `i % 10`, the direction
   * chosen by the random draw, so each value moves by at most 9.
   */
  method UpdateKeys(s: Session, prefix: string, n: int, fails: set<int>, increments: set<int>)
    returns (r: Result<Session>)
    ensures r.Success? <==> CanConnect(s.helper) || FailureCount(fails, n) == 0
    ensures r.Success? ==> Completed(s, r.value, prefix, n, fails)
    ensures r.Success? ==> forall i :: 1 <= i <= n && i !in fails ==>
              && Key(prefix, i) in r.value.store
              && r.value.store[Key(prefix, i)] - ValueOrZero(s.store, Key(prefix, i))
                 == (if i in increments then i % 10 else -(i % 10))
              && -9 <= r.value.store[Key(prefix, i)] - ValueOrZero(s.store, Key(prefix, i)) <= 9
  {
    r := RunPhase(UpdatePhase, s, prefix, n, fails, increments);
  }

  /** Remove phase: `DEL prefix+i` for every iteration that keeps its connection. */
  method RemoveKeys(s: Session, prefix: string, n: int, fails: set<int>) returns (r: Result<Session>)
    ensures r.Success? <==> CanConnect(s.helper) || FailureCount(fails, n) == 0
    ensures r.Success? ==> Completed(s, r.value, prefix, n, fails)
    ensures r.Success? ==> forall i :: 1 <= i <= n && i !in fails ==> Key(prefix, i) !in r.value.store
  {
    r := RunPhase(RemovePhase, s, prefix, n, fails, {});
  }

  function PhaseVerb(p: Phase): string {
    match p
    case WritePhase => "Added keys to RDB"
    case ReadPhase => "Read keys to RDB"
    case UpdatePhase => "Updated keys to RDB"
    case RemovePhase => "Removed keys from RDB"
  }

  /** `"Client {0} : <verb> {1}1 - {1}{2}. Time: {3}ms."` */
  function DetailLine(threadId: int, p: Phase, load: int, ms: int): string {
    var prefix := KeyPrefix(threadId);
    "Client " + IntToString(threadId) + " : " + PhaseVerb(p) + " " + prefix + "1 - " + prefix
      + IntToString(load) + ". Time: " + IntToString(ms) + "ms."
  }

  function TotalFailures(oracle: FailureOracle, n: int): nat {
    FailureCount(oracle.write, n) + FailureCount(oracle.read, n)
      + FailureCount(oracle.update, n) + FailureCount(oracle.remove, n)
  }

  /**
   * `TestHelper.BasicStringTest`: write, read, update and remove over the
   * thread's key space, one detail line and one timing per phase.
   */
  method BasicStringTest(threadId: int, testLoad: int, s: Session, oracle: FailureOracle,
                         increments: set<int>, elapsed: Timings)
    returns (r: Result<Outcome>)
    ensures r.Success? <==> CanConnect(s.helper) || TotalFailures(oracle, testLoad) == 0
    ensures r.Success? ==> r.value.result.load == testLoad && r.value.result.timings == elapsed
    ensures r.Success? ==> r.value.result.details == [
              DetailLine(threadId, WritePhase, testLoad, elapsed.write),
              DetailLine(threadId, ReadPhase, testLoad, elapsed.read),
              DetailLine(threadId, UpdatePhase, testLoad, elapsed.update),
              DetailLine(threadId, RemovePhase, testLoad, elapsed.cleanUp)]
    ensures r.Success? ==> r.value.session.reconnects == s.reconnects + TotalFailures(oracle, testLoad)
    ensures r.Success? ==> forall i :: 1 <= i <= testLoad && i !in oracle.remove ==>
              Key(KeyPrefix(threadId), i) !in r.value.session.store
    ensures r.Success? ==> AgreeOutside(s.store, r.value.session.store, KeyRange(KeyPrefix(threadId), testLoad))
    ensures TotalFailures(oracle, testLoad) == 0 ==>
              r.Success? && r.value.session.store == s.store - KeyRange(KeyPrefix(threadId), testLoad)
  {
    var prefix := KeyPrefix(threadId);
    var written :- WriteKeys(s, prefix, testLoad, oracle.write);
    var read :- ReadKeys(written, prefix, testLoad, oracle.read);
    var updated :- UpdateKeys(read, prefix, testLoad, oracle.update, increments);
    var removed :- RemoveKeys(updated, prefix, testLoad, oracle.remove);
    AgreeOutsideTransitive(s.store, written.store, read.store, KeyRange(prefix, testLoad));
    AgreeOutsideTransitive(s.store, read.store, updated.store, KeyRange(prefix, testLoad));
    AgreeOutsideTransitive(s.store, updated.store, removed.store, KeyRange(prefix, testLoad));
    if TotalFailures(oracle, testLoad) == 0 {
      FailureCountZero(oracle.remove, testLoad);
      ClearedKeySpace(s.store, removed.store, prefix, testLoad);
    }
    var lines := [
      DetailLine(threadId, WritePhase, testLoad, elapsed.write),
      DetailLine(threadId, ReadPhase, testLoad, elapsed.read),
      DetailLine(threadId, UpdatePhase, testLoad, elapsed.update),
      DetailLine(threadId, RemovePhase, testLoad, elapsed.cleanUp)];
    return Success(Outcome(RunResult(testLoad, elapsed, lines), removed));
  }

  /**
   * `ParralelClientWork`: one worker's run over the aggregate's per-client load,
   * merged into the aggregate: timings added, its four detail lines appended.
   */
  method ParallelClientWork(aggregate: RunResult, threadId: int, s: Session, oracle: FailureOracle,
                            increments: set<int>, elapsed: Timings)
    returns (r: Result<Outcome>)
    ensures r.Success? <==> CanConnect(s.helper) || TotalFailures(oracle, aggregate.load) == 0
    ensures r.Success? ==> r.value.result.load == aggregate.load
    ensures r.Success? ==> r.value.result.timings == AddTimings(aggregate.timings, elapsed)
    ensures r.Success? ==> r.value.result.details == aggregate.details + [
              DetailLine(threadId, WritePhase, aggregate.load, elapsed.write),
              DetailLine(threadId, ReadPhase, aggregate.load, elapsed.read),
              DetailLine(threadId, UpdatePhase, aggregate.load, elapsed.update),
              DetailLine(threadId, RemovePhase, aggregate.load, elapsed.cleanUp)]
    ensures r.Success? ==> r.value.session.reconnects == s.reconnects + TotalFailures(oracle, aggregate.load)
  {
    var run :- BasicStringTest(threadId, aggregate.load, s, oracle, increments, elapsed);
    return Success(Outcome(Merge(aggregate, run.result), run.session));
  }
}

=== FILE: wrappers.dfy ===
/** Null references and thrown exceptions of the modelled code, as values. */
module Wrappers {

  /** A reference that may be null: `None` stands for C#'s `null`. */
  datatype Option<+T> = None | Some(value: T)

  /** The exceptions the modelled code can raise on its own (not those of the store). */
  datatype Error =
    | NullReference   // member access through a null reference
    | DivideByZero    // integer division or remainder by zero

  /** Either a value or the exception that was thrown instead. */
  datatype Result<+T> = Success(value: T) | Failure(error: Error) {

    /** The three members that let `:-` propagate a thrown exception. */
    predicate IsFailure() {
      Failure?
    }

    function PropagateFailure<U>(): Result<U>
      requires Failure?
    {
      Failure(error)
    }

    function Extract(): T
      requires Success?
    {
      value
    }
  }
}
